=== FILE: README.md ===
# Apollo Server request pipeline, modelled in Dafny

This project models the request-execution core of the `apollo-server`
package vendored by a small GraphQL demo application. It has three parts.

- **Operation store** (`operation_store.dfy`). This is a whitelist from
  operation name to a parsed, validated GraphQL document.
  - `put` accepts query text or a parsed document. It rejects a document
    with no operation definition, or with more than one. It validates the
    document against the store's schema. Then it stores the whole document
    under the operation's name.
  - `get`, `delete` and `getMap` are plain map operations.
  - The store is a class whose `storedOperations` field the methods reassign.
    `Put` and `Delete` are proved against the pure decision function
    `Register` and the one-call update `Apply`. `Get` and `GetMap` state
    their results directly on the field: the entry for the name, and the
    whole mapping.
- **Query executor** (`run_query.dfy`). `runQuery`/`doRunQuery` take one
  query through these steps:
  - print the query text and log the request and its parameters;
  - parse and validate it, but only when it is text;
  - execute it;
  - format the errors;
  - apply the `formatResponse` hook.

  The method `DoRunQuery` builds the log as a sequence of `LogMessage`s and
  returns the response, the log and the stack traces printed in debug mode.
  It is proved equal to the specification function `QueryRun`. The lemmas
  state the exact log and response on each path.
- **HTTP adapters** (`integrations.dfy`, `express_apollo.dfy`,
  `hapi_apollo.dfy`). Both adapters do the following:
  - resolve the server options, which may be a function that rejects;
  - turn the body into a list of items, remembering whether it was a batch;
  - parse string `variables`;
  - apply `formatParams`;
  - run the items in order, catching what each one throws;
  - choose the status code and the body.

  Express does this in one middleware function. hapi splits it into four
  pre-handlers and a route handler. Each loop over the items that runs
  queries is a method proved against a specification function built on
  `Traverse`. `Traverse` is a loop that collects one result per element
  until the first step that throws. hapi's `getGraphQLParams` loop is proved
  against a sequence comprehension instead, guarded by the test that some
  `variables` string is invalid. Lemmas
  state the status codes, the one-response-per-item guarantee and the
  per-item isolation of errors. Two lemmas pin down where the adapters differ.
  A third states that they agree on every request that neither rejects up
  front. The adapters also differ in ways that no lemma relates:
  - A missing body gets "POST body missing. Did you forget …" from Express
    but "POST body missing." from hapi.
  - When the options function rejects, Express writes its 500 and then also
    rejects its handler's promise. hapi only replies with a Boom 500.
  - A non-POST request gets 405 from Express. hapi's router answers it with
    404, which is not modelled.
  - When an item's `variables` string is invalid JSON, Express has already
    run every item before it, with whatever effects their execution has,
    before it answers 400. hapi checks every item's `variables` first and
    runs none.
  - When an earlier item's `formatErrorFn` throws and a later item has
    invalid `variables`, Express rejects its handler's promise. hapi, which
    checks the variables first, answers 400.

The GraphQL library is the `Engine` record of `graphql.dfy`: `parse`,
`validate`, `specifiedRules`, `execute`, `print`, `formatError`. It is
passed to every operation as a parameter. `execute` and `print` may be
handed an absent document. Each of them may return or throw, as its
`Result` type allows. `JSON.parse` is passed in the same way, as a
`JsonParser`.

The caller's hooks may throw too: `formatError`, `formatResponse` and
`formatParams` all return a `Result`. So may validation, since the caller's
`validationRules` run inside it. A throw from `validate` is caught nowhere
in the query runner: it rejects the runner's promise right after
`validation/start`, and it escapes `put` as it is. A throw from `formatError` or
`formatResponse` rejects the query runner's promise. The adapters catch
that rejection per item and format it with `formatErrorFn`. A throw from
`formatErrorFn` inside that `catch` escapes. In Express it rejects the
handler's promise with nothing written. In hapi it rejects `processQuery`'s
promise, and the route never replies.

The code is the reference throughout. These behaviours are modelled as the
code has them:

- **The anonymous operation.** `put` reads the single operation's name
  unguarded, so an anonymous operation makes it throw a TypeError after
  validation, and nothing is stored. This is the `AnonymousOperation` error.
- **Express's options rejection.** When the options function rejects, the
  Express handler writes the 500 response but does not return. It then reads
  `formatError` of the absent options object and its promise rejects. This
  is `rejected == true` in `ServerResponse`.
- **A query that is not text.** It is printed for the log, whatever it is.
  An absent query is printed as well, and then executed with no document.
- **`request/end` on early returns.** The query executor does not log
  `request/end` when it returns early on a syntax error or on validation
  errors.

## Model

| member | source | states |
|---|---|---|
| OperationStore.OperationDefinitions | node_modules/apollo-server/dist/modules/operationStore.js:10-17 | the filter keeps exactly the definitions of kind `OperationDefinition`, and never more definitions than the document has |
| OperationStore.SeveralOperationsKept | node_modules/apollo-server/dist/modules/operationStore.js:17-23 | two distinct operation definitions make the filter keep more than one |
| OperationStore.SeveralOperationsWitnessed | node_modules/apollo-server/dist/modules/operationStore.js:17-23 | the filter keeps more than one definition only if two distinct definitions are operations |
| OperationStore.SeveralOperationsIff | node_modules/apollo-server/dist/modules/operationStore.js:17-23 | the filter keeps more than one definition iff two distinct definitions are operations |
| OperationStore.OneOperationIff | node_modules/apollo-server/dist/modules/operationStore.js:17-31 | the filter keeps exactly one definition iff the document has a sole operation definition, and then `definitions[0]` is that definition |
| OperationStore.Register | node_modules/apollo-server/dist/modules/operationStore.js:9-31 | the decision `put` takes: a syntax error, no operation, several operations, validation errors, an anonymous operation, or the name and whole document it stores; a throw from validation escapes as `ValidateThrew` |
| OperationStore.Apply | node_modules/apollo-server/dist/modules/operationStore.js:31-38 | the mapping after one `put` (updated with the registration, or unchanged on a throw) or one `delete` (the name removed) |
| OperationStore.ApplyTouchesOneName | node_modules/apollo-server/dist/modules/operationStore.js:31-38 | a successful `put` maps the operation's name to the whole, non-empty document; a failed `put` leaves the map unchanged; `delete` removes its name; every other name keeps its entry |
| OperationStore.LiveAtAppend | node_modules/apollo-server/dist/modules/operationStore.js:31-38 | one more call keeps an earlier registration live unless it deletes that name |
| OperationStore.LiveNamesAppend | node_modules/apollo-server/dist/modules/operationStore.js:31-38 | a successful `put` adds its name to the live names, a `delete` removes its name, and a failed `put` changes nothing |
| OperationStore.ReplayKeysAreLiveNames | node_modules/apollo-server/dist/modules/operationStore.js:5-41 | starting from an empty store, the keys after any sequence of calls are the names put successfully and not deleted since, so `getMap().size` counts them |
| OperationStore.TextAndDocumentAgree | node_modules/apollo-server/dist/modules/operationStore.js:16 | putting query text decides and stores exactly what putting its parse would; a syntax error is thrown as it is |
| OperationStore.NoOperationIff | node_modules/apollo-server/dist/modules/operationStore.js:17-20 | `put` throws "must contain at least one definition" iff no definition is an operation |
| OperationStore.MultipleOperationsIff | node_modules/apollo-server/dist/modules/operationStore.js:21-23 | `put` throws "must contain only one definition" iff two definitions are operations, whatever validation would say |
| OperationStore.ValidationFailedIff | node_modules/apollo-server/dist/modules/operationStore.js:24-30 | with a sole operation, `put` fails validation iff the standard rules report errors; it then carries those errors as `originalErrors`, and its message is "Validation Errors:\n" followed by their messages joined by newlines |
| OperationStore.RegisterSucceedsIff | node_modules/apollo-server/dist/modules/operationStore.js:17-31 | `put` succeeds iff the document has a sole, named operation that validates, and it then registers the whole document under that name |
| OperationStore.ValidateThrowEscapes | node_modules/apollo-server/dist/modules/operationStore.js:17-24 | with a sole operation, `put` throws what validation throws iff validation throws, that very error with its own message |
| OperationStore.Message | node_modules/apollo-server/dist/modules/operationStore.js:16-29 | the message of each error `put` throws: the syntax error's own, the two arity texts, "Validation Errors:\n" and the joined messages, or the thrown validation error's own; stated by `NoOperationIff`, `MultipleOperationsIff`, `ValidationFailedIff`, `SingleValidationMessage` and `ValidateThrowEscapes` |
| OperationStore.SingleValidationMessage | node_modules/apollo-server/dist/modules/operationStore.js:26-27 | one validation error is reported as the prefix followed by its message |
| OperationStore.OperationStore.constructor | node_modules/apollo-server/dist/modules/operationStore.js:5-8 | a new store keeps its schema and starts empty |
| OperationStore.OperationStore.Put | node_modules/apollo-server/dist/modules/operationStore.js:9-32 | the thrown error is the one `Register` decides; on success the map becomes the old map updated with that one entry, and on any error it is unchanged |
| OperationStore.OperationStore.Get | node_modules/apollo-server/dist/modules/operationStore.js:33-35 | the stored document for a known name, `None` for an unknown one, and the store is not modified |
| OperationStore.OperationStore.Delete | node_modules/apollo-server/dist/modules/operationStore.js:36-38 | returns true iff the name was stored, and removes only that name |
| OperationStore.OperationStore.GetMap | node_modules/apollo-server/dist/modules/operationStore.js:39-41 | returns the current mapping |
| Wrappers.Traverse | node_modules/apollo-server/dist/integrations/hapiApollo.js:116-141 | the loop's results, one per element and in order, when no step throws; otherwise the throw of the first step that throws, every earlier step having returned |
| Wrappers.TraverseFirstFailure | node_modules/apollo-server/dist/integrations/hapiApollo.js:117-140 | the loop ends with the throw of the first throwing step |
| Wrappers.TraversePrefixFailure | apolloserver/node_modules/apollo-server/dist/integrations/expressApollo.js:57-94 | a loop that ends within the first elements ends the same way whatever elements follow |
| Wrappers.TraverseRemove | apolloserver/node_modules/apollo-server/dist/integrations/expressApollo.js:57-94 | in a loop where no step throws, leaving one element out leaves out its result and changes no other |
| RunQuery.Format | node_modules/apollo-server/dist/core/runQuery.js:27-29 | `errors.map(formatError || graphql.formatError)` as a `Traverse`: every error formatted in order, or the first formatter throw |
| RunQuery.PrintStackTraces | node_modules/apollo-server/dist/core/runQuery.js:30-32 | one stack trace per error, in order |
| RunQuery.Executed | node_modules/apollo-server/dist/core/runQuery.js:61-85 | the execution step: a synchronous `execute` throw is formatted; otherwise `data`, the formatted errors, the stack traces in debug mode and then `formatResponse`; a formatter or `formatResponse` throw rejects |
| RunQuery.TextRun | node_modules/apollo-server/dist/core/runQuery.js:37-57 | query text is parsed, then validated, and a syntax error or validation errors end the run with their formatted errors; a throw from validation rejects the run |
| RunQuery.QueryRun | node_modules/apollo-server/dist/core/runQuery.js:21-86 | the run of one query: the query printed for the log unless it is text, the status messages, then `TextRun` for text and `Executed` with the query as the document otherwise |
| RunQuery.ExecuteDocument | node_modules/apollo-server/dist/core/runQuery.js:61-85 | the execution step produces exactly the run `Executed` specifies |
| RunQuery.ParseAndValidate | node_modules/apollo-server/dist/core/runQuery.js:37-57 | the parse and validation steps produce exactly the run `TextRun` specifies |
| RunQuery.DoRunQuery | node_modules/apollo-server/dist/core/runQuery.js:17-86 | the step-by-step run produces exactly the response, log and stack traces `QueryRun` specifies |
| RunQuery.TraceOpening | node_modules/apollo-server/dist/core/runQuery.js:26-36 | every log starts with request/start; text is never printed; a throw from printing any other query rejects right after request/start; otherwise the `query` (the printed text, possibly absent), `variables` and `operationName` status messages follow, in that order |
| RunQuery.SyntaxErrorPath | node_modules/apollo-server/dist/core/runQuery.js:37-46 | a syntax error gives `{errors: [format(e)]}` with no data, or the formatter's throw; the log ends at parse/end and holds no validation, execute or request/end message |
| RunQuery.ValidationErrorPath | node_modules/apollo-server/dist/core/runQuery.js:47-56 | validation uses the standard rules followed by the caller's rules; any error gives all of them formatted, in order, with no data, or the throw on one of them; nothing is executed |
| RunQuery.SuccessfulTextTrace | node_modules/apollo-server/dist/core/runQuery.js:37-65 | query text that parses, validates and executes logs exactly eleven messages, the last request/end |
| RunQuery.NonTextSkipsParseAndValidation | node_modules/apollo-server/dist/core/runQuery.js:58-65 | a document or an absent query that prints skips parse and validation and executes that very document, or no document; the log holds seven messages |
| RunQuery.ExecutionResponse | node_modules/apollo-server/dist/core/runQuery.js:63-78 | `data` is the engine's data; `errors` is present iff the engine reported errors, each formatted, with count and order kept; `formatResponse` sees that response and its result or throw is final; a formatter throw rejects the run |
| RunQuery.FormatResponseThrowRejects | node_modules/apollo-server/dist/core/runQuery.js:75-77 | a `formatResponse` that throws makes the run reject with that error |
| RunQuery.StackTracesOnlyInDebug | node_modules/apollo-server/dist/core/runQuery.js:69-74 | one stack trace per execution error iff debug is on, there are errors and they could be formatted; none otherwise |
| RunQuery.NoStackTracesBeforeExecution | node_modules/apollo-server/dist/core/runQuery.js:37-56 | a text run that stops before execution prints no stack trace |
| RunQuery.ValidateThrowPath | node_modules/apollo-server/dist/core/runQuery.js:47-53 | a throw from validation rejects the run with that error; the log ends at validation/start, with no validation/end, execute or request/end message, and no stack trace is printed |
| RunQuery.DebugOptionDecides | node_modules/apollo-server/dist/core/runQuery.js:24-25 | an explicit `debug` option makes the run independent of the environment's default, and stack traces are printed only when debug mode is on |
| RunQuery.DebugEnabled | node_modules/apollo-server/dist/core/runQuery.js:24-25 | the `debug` option when given, else the environment's default; stated by `DebugOptionDecides` and `StackTracesOnlyInDebug` |
| RunQuery.ChosenFormatter | node_modules/apollo-server/dist/core/runQuery.js:28 | the caller's `formatError` when given, else the library's; `ItemWithTotalHooks` states that the adapters' `formatErrorFn` is this same choice |
| RunQuery.Rules | node_modules/apollo-server/dist/core/runQuery.js:47-50 | the standard rules, followed by the caller's `validationRules` when given; stated by `ValidationErrorPath` |
| RunQuery.Finalize | node_modules/apollo-server/dist/core/runQuery.js:75-78 | the response through `formatResponse` when given, whose result or throw is final; stated by `ExecutionResponse` and `FormatResponseThrowRejects` |
| RunQuery.IsRequestError | apolloserver/node_modules/apollo-server/dist/integrations/expressApollo.js:102 | a response with errors and no data, which both adapters answer with 400 outside batch mode; stated by `ExpressApollo.ResponsePerItem` and `HapiApollo.RouteResponses` |
| RunQuery.ExecuteThrowPath | node_modules/apollo-server/dist/core/runQuery.js:81-85 | a synchronous throw from `execute` gives `{errors: [format(e)]}`, or the formatter's throw, after execute/end and request/end, and `formatResponse` is not applied |
| Integrations.ResolveOptions | apolloserver/node_modules/apollo-server/dist/integrations/expressApollo.js:23-35 | an options value as it is, or what the options function resolves to or rejects with; stated by `ExpressApollo.OptionsRejected`, `ExpressApollo.StaticOptionsUsedAsIs` and `HapiApollo.OptionsRejected` (hapiApollo.js:98-109 is the same test) |
| Integrations.Items | apolloserver/node_modules/apollo-server/dist/integrations/expressApollo.js:50-55 | an array body as it is, one object as a list of one; stated by `ExpressApollo.ResponsePerItem` and `HapiApollo.ParamsPerItem` |
| Integrations.ItemQueryOptions | apolloserver/node_modules/apollo-server/dist/integrations/expressApollo.js:73-85 | the options of one query: the server's schema, root value, context, rules, `formatResponse` and `debug`, the item's query, variables and operation name, and `formatErrorFn` as its formatter; stated by `ItemWithTotalHooks` |
| Integrations.FormattedParams | apolloserver/node_modules/apollo-server/dist/integrations/expressApollo.js:86-88 | those options through `formatParams` when given, whose result or throw is final; stated by `RejectedItem` and `ExpressApollo.RejectedItemIsolated` |
| Integrations.ItemResponse | node_modules/apollo-server/dist/integrations/hapiApollo.js:118-139 | one item's response: the query's own response, or the thrown error through `formatErrorFn`, whose own throw escapes |
| Integrations.RunItem | node_modules/apollo-server/dist/integrations/hapiApollo.js:118-139 | one item's run produces exactly `ItemResponse` |
| Integrations.RejectedItem | node_modules/apollo-server/dist/integrations/hapiApollo.js:132-138 | an item that `formatParams` rejects is answered with that one error through `formatErrorFn` and no data, or throws what `formatErrorFn` throws on it |
| Integrations.CaughtError | node_modules/apollo-server/dist/integrations/hapiApollo.js:118-139 | what the per-item `catch` receives: the throw of `formatParams`, or the run's rejection; stated by `CaughtItem` |
| Integrations.RejectedRun | node_modules/apollo-server/dist/integrations/hapiApollo.js:135-139 | an item whose run rejects (printing, validation, a formatter or `formatResponse` threw) is answered with that error through `formatErrorFn` and no data, or throws what `formatErrorFn` throws on it |
| Integrations.CaughtItem | node_modules/apollo-server/dist/integrations/hapiApollo.js:118-139 | whatever the per-item `try` catches, from `formatParams` or the run, is answered with that one error through `formatErrorFn` and no data, or escapes as `formatErrorFn`'s throw; when nothing is caught, the item gets the run's own response |
| Integrations.ItemWithTotalHooks | node_modules/apollo-server/dist/integrations/hapiApollo.js:115-138 | `formatErrorFn` is the formatter inside the query runner too; when no hook, printing or validation throws, no item throws and each gets the runner's own response |
| Integrations.ExecutedWithTotalHooks | node_modules/apollo-server/dist/core/runQuery.js:61-85 | the execution step never rejects when the formatter and `formatResponse` never throw |
| ExpressApollo.NatToString | apolloserver/node_modules/apollo-server/dist/integrations/expressApollo.js:19 | the argument count is written as a non-empty string of decimal digits with no leading zero |
| ExpressApollo.NatToStringRoundTrip | apolloserver/node_modules/apollo-server/dist/integrations/expressApollo.js:19 | the argument count written into the message reads back as that count |
| ExpressApollo.ApolloExpress | apolloserver/node_modules/apollo-server/dist/integrations/expressApollo.js:14-20 | the middleware's options, or the message thrown when they are missing or falsy, or when more than one argument is given |
| ExpressApollo.ApolloExpressArguments | apolloserver/node_modules/apollo-server/dist/integrations/expressApollo.js:14-20 | creating the middleware fails iff the options are missing or falsy, or more than one argument is given; a missing option is reported first; the other message ends with the number of arguments |
| ExpressApollo.ExpressVariables | apolloserver/node_modules/apollo-server/dist/integrations/expressApollo.js:61-72 | every string `variables`, even an empty one, is parsed, and one that is not valid JSON is refused; anything else passes through; stated by `InvalidVariablesAbortRequest` and `HapiApollo.EmptyVariablesDiffer` |
| ExpressApollo.ItemStep | apolloserver/node_modules/apollo-server/dist/integrations/expressApollo.js:58-93 | one turn of the loop: a string `variables` (even empty) is parsed, and invalid JSON stops the loop; otherwise the item's response, or `formatErrorFn`'s throw |
| ExpressApollo.Handled | apolloserver/node_modules/apollo-server/dist/integrations/expressApollo.js:21-108 | what the middleware does with one request: options, method and body checks, the loop over the items, then the status code and body |
| ExpressApollo.RunStep | apolloserver/node_modules/apollo-server/dist/integrations/expressApollo.js:58-93 | one turn of the loop produces exactly `ItemStep` |
| ExpressApollo.RunItems | apolloserver/node_modules/apollo-server/dist/integrations/expressApollo.js:56-94 | the loop over the items produces exactly the `Traverse` of `ItemStep` |
| ExpressApollo.Handle | apolloserver/node_modules/apollo-server/dist/integrations/expressApollo.js:21-108 | the handler produces exactly the response `Handled` specifies |
| ExpressApollo.OptionsRejected | apolloserver/node_modules/apollo-server/dist/integrations/expressApollo.js:22-36 | a rejecting options function gives 500 "Invalid options provided to ApolloServer: " plus its message, whatever the request, and the handler then rejects |
| ExpressApollo.StaticOptionsUsedAsIs | apolloserver/node_modules/apollo-server/dist/integrations/expressApollo.js:33-35 | an options value behaves as a function that always resolves to it |
| ExpressApollo.NotPostRejected | apolloserver/node_modules/apollo-server/dist/integrations/expressApollo.js:37-43 | a non-POST request gets 405 with `Allow: POST`, independently of the engine, so no item runs |
| ExpressApollo.MissingBodyRejected | apolloserver/node_modules/apollo-server/dist/integrations/expressApollo.js:44-49 | a POST without a body gets 500 "POST body missing. …", independently of the engine |
| ExpressApollo.InvalidVariablesAbortRequest | apolloserver/node_modules/apollo-server/dist/integrations/expressApollo.js:62-71 | once the items before it have run, an item whose `variables` string is not valid JSON ends the whole request with 400 "Variables are invalid JSON.", discarding every response |
| ExpressApollo.ItemThrowRejects | apolloserver/node_modules/apollo-server/dist/integrations/expressApollo.js:91-93 | once the items before it have run, an item on whose error `formatErrorFn` throws makes the handler reject with nothing written |
| ExpressApollo.ResponsePerItem | apolloserver/node_modules/apollo-server/dist/integrations/expressApollo.js:50-107 | when every item runs to a response: an array body gets 200 and one response per item, in order; a single object gets its one response, with 400 iff it has errors and no data, else 200; both as `application/json` |
| ExpressApollo.RejectedItemIsolated | apolloserver/node_modules/apollo-server/dist/integrations/expressApollo.js:56-94 | in a batch whose items all run, an item whose `formatParams` throws or whose run rejects gets that formatted error, and the other items are answered as if it were absent |
| ExpressApollo.BatchResponses | apolloserver/node_modules/apollo-server/dist/integrations/expressApollo.js:95-99 | a batch whose items all run is answered with the list of their responses |
| HapiApollo.VerifyPayload | node_modules/apollo-server/dist/integrations/hapiApollo.js:64-69 | a missing payload is a Boom 500 "POST body missing."; otherwise whether it is an array |
| HapiApollo.HapiVariables | node_modules/apollo-server/dist/integrations/hapiApollo.js:76-84 | only a non-empty string `variables` is parsed, and one that is not valid JSON is refused; anything else passes through; stated by `ParamsPerItem`, `InvalidVariablesAbortRequest` and `EmptyVariablesDiffer` |
| HapiApollo.GraphQLParamsOf | node_modules/apollo-server/dist/integrations/hapiApollo.js:70-92 | the records `getGraphQLParams` replies with, one per item, or a Boom 400 when a non-empty `variables` string is not valid JSON |
| HapiApollo.GetGraphQLParams | node_modules/apollo-server/dist/integrations/hapiApollo.js:70-92 | the loop replies exactly what `GraphQLParamsOf` specifies |
| HapiApollo.GetApolloOptions | node_modules/apollo-server/dist/integrations/hapiApollo.js:94-112 | the options value, or what the options function resolves to; a rejection is a Boom 500 with the prefix and its message |
| HapiApollo.ProcessedResponses | node_modules/apollo-server/dist/integrations/hapiApollo.js:113-143 | what `processQuery` resolves to: the `Traverse` of the records' responses |
| HapiApollo.ProcessQuery | node_modules/apollo-server/dist/integrations/hapiApollo.js:113-143 | the loop produces exactly `ProcessedResponses` |
| HapiApollo.ProcessedPerRecord | node_modules/apollo-server/dist/integrations/hapiApollo.js:113-143 | `processQuery` resolves to every record's response, in order, when none throws, and otherwise rejects with the first throw |
| HapiApollo.Handler | node_modules/apollo-server/dist/integrations/hapiApollo.js:41-55 | the whole list for a batch, else the first response with 400 when it has errors and no data |
| HapiApollo.RouteReply | node_modules/apollo-server/dist/integrations/hapiApollo.js:14-56 | the pre-handlers in order, the first error replied as is, then the handler; no reply when `processQuery` rejects |
| HapiApollo.Route | node_modules/apollo-server/dist/integrations/hapiApollo.js:14-56 | the pre-handlers in order, then the handler, give exactly the reply `RouteReply` specifies |
| HapiApollo.ParamsPerItem | node_modules/apollo-server/dist/integrations/hapiApollo.js:64-92 | a missing payload gives Boom 500 "POST body missing."; otherwise `isBatch` iff the payload is an array, and there is one record per item in order; a non-empty `variables` string is parsed and anything else passes through unchanged |
| HapiApollo.InvalidVariablesAbortRequest | node_modules/apollo-server/dist/integrations/hapiApollo.js:76-84 | one non-empty `variables` string that is not valid JSON gives 400 "Variables are invalid JSON." for the whole request before any record runs, whatever the options |
| HapiApollo.OptionsRejected | node_modules/apollo-server/dist/integrations/hapiApollo.js:94-112 | a rejecting options function gives Boom 500 "Invalid options provided to ApolloServer: " plus its message |
| HapiApollo.RouteResponses | node_modules/apollo-server/dist/integrations/hapiApollo.js:41-55 | when every record runs to a response, a batch is answered with the whole list, one response per item, and a single object with its response, with 400 iff it has errors and no data; otherwise there is no reply, and the throw is the first record's throw |
| HapiApollo.CheckOrderDiffers | node_modules/apollo-server/dist/integrations/hapiApollo.js:23-35 | with a rejecting options function and invalid `variables`, Express answers 500 and rejects, while hapi answers 400 |
| HapiApollo.EmptyVariablesDiffer | node_modules/apollo-server/dist/integrations/hapiApollo.js:77 | an empty `variables` string is parsed by Express, which answers 400 when it is refused, but hapi passes it through unchanged and runs the item with it |
| HapiApollo.AdaptersAgree | node_modules/apollo-server/dist/integrations/hapiApollo.js:113-143 | where neither adapter rejects the request up front, Express's handler rejects iff hapi gives no reply, and otherwise both answer with the same status and the same responses |
| HapiApollo.GetGraphiQLParams | node_modules/apollo-server/dist/integrations/hapiApollo.js:182-188 | the URL's `query`, `variables` and `operationName`, each defaulting to '', '{}' and '' when absent or empty |
| HapiApollo.GraphiQLDefaults | node_modules/apollo-server/dist/integrations/hapiApollo.js:182-188 | `query`, `variables` and `operationName` are the given value when present and non-empty, else '', '{}' and ''; applying the defaults again changes nothing |

## Left out

- The GraphQL library is not modelled: parsing, validation, execution, printing and default error formatting. It is the abstract `Engine`, so its grammar and type checking are not modelled either.
- JSON parsing is not modelled; it is the abstract `JsonParser`.
- Promises and async plumbing are not modelled. Each call is one sequential step.
  - A rejected promise is a `Failure`.
  - An `execute` that returns a rejecting promise, rather than throwing synchronously, is not modelled.
- The `logFunction` option is not modelled. The run returns its log instead.
- `console.error` is not modelled. The run returns the stack traces it would print.
- The `NODE_ENV`-dependent default of `debug` is not modelled. It is the `debugDefault` parameter.
- RunQuery.QueryRun: `formatResponse` receives the data part of the options (`QueryFields`), without the two hooks. The hooks are function values, and a datatype cannot hold a function that takes the datatype itself.
- Values the JavaScript code accepts by duck typing are not modelled:
  - a non-string `query`;
  - a non-object batch item;
  - a falsy options value inside hapi's route settings;
  - an options function resolving to `undefined`;
  - a rejection without `message`.
- OperationStore.OperationStore.GetMap: returns a copy of the mapping. Aliasing of the returned `Map` with the store is not modelled.
- The TypeError message of an anonymous operation in `put` is not modelled. It is the `AnonymousOperation` error without a text.
- Boom, Express and hapi response objects are not modelled; only status code, headers, payload and the rejection flag are.
- ExpressApollo.Handled: a rejected handler is only flagged; the error it rejects with is not carried. hapi's `RouteReply` does carry it.
- hapi answers a non-POST request with 404 from its router, before any handler of this route runs; that is not modelled.
- GraphiQL HTML rendering is not modelled.
- URL and query-string parsing in `graphiqlExpress` and `graphiqlHapi` are not modelled. The GraphiQL defaults take the parsed query string as a map.
- The demo application is not part of this model: Express and hapi bootstrap, Mongoose models and seeding, resolvers, schema text and the React Native client.

=== FILE: express_apollo.dfy ===
/** The Express middleware: argument checks when it is created, then, per
    request, options resolution, method and body checks, the loop over the
    body's items and the choice of status code and body. */
module ExpressApollo {
  import opened Wrappers
  import opened GraphQL
  import opened RunQuery
  import opened Integrations

  const REQUIRES_OPTIONS_MESSAGE: string := "Apollo Server requires options."
  const ARGUMENT_COUNT_PREFIX: string := "Apollo Server expects exactly one argument, got "
  const ONLY_POST_MESSAGE: string := "Apollo Server supports only POST requests."
  const BODY_MISSING_MESSAGE: string := "POST body missing. Did you forget \"app.use(bodyParser.json())\"?"
  const JSON_CONTENT_TYPE: string := "application/json"

  /** What is written to the response: plain text, one serialised response,
      the serialised array of responses of a batch, or nothing at all. */
  datatype Payload =
    | Text(text: string)
    | SingleResponse(response: Response)
    | ResponseList(responses: seq<Response>)
    | Nothing

  /** The response the middleware leaves behind: status code (200 unless set),
      the headers it set, what it wrote, and whether the handler's promise
      rejected. */
  datatype ServerResponse = ServerResponse(statusCode: nat, headers: map<string, string>, payload: Payload, rejected: bool)

  /** A decimal digit. */
  function DigitChar(d: nat): (c: char)
    requires d < 10
    ensures '0' <= c <= '9' && c as int - '0' as int == d
  {
    (d + '0' as int) as char
  }

  /** A count as JavaScript writes it into a template string. */
  function NatToString(n: nat): (s: string)
    ensures |s| >= 1
    ensures forall i :: 0 <= i < |s| ==> '0' <= s[i] <= '9'
    ensures s[0] == '0' <==> n == 0
    decreases n
  {
    if n < 10 then [DigitChar(n)] else NatToString(n / 10) + [DigitChar(n % 10)]
  }

  /** The value of a string of decimal digits. */
  function DigitsValue(s: string): nat
    requires forall i :: 0 <= i < |s| ==> '0' <= s[i] <= '9'
    decreases |s|
  {
    if |s| == 0 then 0 else DigitsValue(s[..|s| - 1]) * 10 + (s[|s| - 1] as int - '0' as int)
  }

  /** The count in the message reads back as the count. */
  lemma {:induction false} NatToStringRoundTrip(n: nat)
    ensures DigitsValue(NatToString(n)) == n
    decreases n
  {
    if n >= 10 {
      NatToStringRoundTrip(n / 10);
      var s := NatToString(n);
      assert s[..|s| - 1] == NatToString(n / 10);
    }
  }

  /** `apolloExpress(...arguments)`: the middleware's options, or the message
      of the error thrown when they are missing or falsy, or when more than one
      argument is given. */
  function ApolloExpress(arguments: seq<Option<OptionsSource>>): Result<OptionsSource, string>
  {
    var options := if |arguments| == 0 then None else arguments[0];
    if options.None? then Failure(REQUIRES_OPTIONS_MESSAGE)
    else if |arguments| > 1 then Failure(ARGUMENT_COUNT_PREFIX + NatToString(|arguments|))
    else Success(options.value)
  }

  /** Creating the middleware fails exactly when the options are missing or
      extra arguments are given; a missing option is reported first, and the
      count in the other message is the number of arguments. */
  lemma ApolloExpressArguments(arguments: seq<Option<OptionsSource>>)
    ensures var r := ApolloExpress(arguments);
      && (r.Success? <==> |arguments| == 1 && arguments[0].Some?)
      && (r.Success? ==> r.value == arguments[0].value)
      && ((|arguments| == 0 || arguments[0].None?) ==> r == Failure(REQUIRES_OPTIONS_MESSAGE))
      && (|arguments| > 1 && arguments[0].Some? ==>
            && r.Failure?
            && |r.error| > |ARGUMENT_COUNT_PREFIX|
            && r.error[..|ARGUMENT_COUNT_PREFIX|] == ARGUMENT_COUNT_PREFIX
            && var count := r.error[|ARGUMENT_COUNT_PREFIX|..];
               (forall i :: 0 <= i < |count| ==> '0' <= count[i] <= '9') && DigitsValue(count) == |arguments|)
  {
    var r := ApolloExpress(arguments);
    if |arguments| > 1 && arguments[0].Some? {
      var count := NatToString(|arguments|);
      assert r.error == ARGUMENT_COUNT_PREFIX + count;
      assert r.error[|ARGUMENT_COUNT_PREFIX|..] == count;
      NatToStringRoundTrip(|arguments|);
    }
  }

  /** Express parses every string `variables`, the empty string included. */
  function ExpressVariables(parse: JsonParser, variables: Option<Json>): ParsedVariables
  {
    if variables.Some? && variables.value.JString? then
      (var parsed := parse(variables.value.s); if parsed.Some? then Variables(parsed) else InvalidJson)
    else Variables(variables)
  }

  /** Why the loop over the items stopped early: an item's `variables`
      string was not valid JSON (the handler answers 400 and returns), or
      `formatErrorFn` threw inside the per-item `catch`. */
  datatype ItemStop = InvalidVariables | ItemThrew(error: Error)

  /** One turn of the loop over the items: parse its `variables`, then run it. */
  function ItemStep(engine: Engine, parse: JsonParser, options: ApolloOptions, debugDefault: bool,
                    requestParams: RequestParams): Result<Response, ItemStop>
  {
    match ExpressVariables(parse, requestParams.variables)
    case InvalidJson => Failure(InvalidVariables)
    case Variables(variables) =>
      match ItemResponse(engine, options, requestParams.query, variables, requestParams.operationName, debugDefault)
      case Failure(e) => Failure(ItemThrew(e))
      case Success(response) => Success(response)
  }

  function Step(engine: Engine, parse: JsonParser, options: ApolloOptions, debugDefault: bool)
    : RequestParams -> Result<Response, ItemStop>
  {
    requestParams => ItemStep(engine, parse, options, debugDefault, requestParams)
  }

  /** The responses of the items, one per item and in order, or why the loop stopped. */
  function ItemResponses(engine: Engine, parse: JsonParser, options: ApolloOptions,
                         items: seq<RequestParams>, debugDefault: bool): Result<seq<Response>, ItemStop>
  {
    Traverse(Step(engine, parse, options, debugDefault), items)
  }

  /** What the middleware does with one request. */
  function Handled(engine: Engine, parse: JsonParser, source: OptionsSource,
                   request: HttpRequest, debugDefault: bool): ServerResponse
  {
    match ResolveOptions(source, request)
    case Failure(e) =>
      ServerResponse(500, map[], Text(INVALID_OPTIONS_PREFIX + e.message), true)
    case Success(options) =>
      if request.verb != "POST" then
        ServerResponse(405, map["Allow" := "POST"], Text(ONLY_POST_MESSAGE), false)
      else if request.body.None? then
        ServerResponse(500, map[], Text(BODY_MISSING_MESSAGE), false)
      else
        match ItemResponses(engine, parse, options, Items(request.body.value), debugDefault)
        case Failure(InvalidVariables) => ServerResponse(400, map[], Text(INVALID_VARIABLES_MESSAGE), false)
        case Failure(ItemThrew(_)) => ServerResponse(200, map[], Nothing, true)
        case Success(responses) =>
          var headers := map["Content-Type" := JSON_CONTENT_TYPE];
          if request.body.value.Batch? then ServerResponse(200, headers, ResponseList(responses), false)
          else ServerResponse(if IsRequestError(responses[0]) then 400 else 200,
                              headers, SingleResponse(responses[0]), false)
  }

  /** One turn of the loop over the items: a `variables` string is parsed,
      and a string that is not valid JSON stops the loop. */
  method RunStep(engine: Engine, parse: JsonParser, options: ApolloOptions, debugDefault: bool,
                 requestParams: RequestParams) returns (r: Result<Response, ItemStop>)
    ensures r == ItemStep(engine, parse, options, debugDefault, requestParams)
  {
    var variables := requestParams.variables;
    if variables.Some? && variables.value.JString? {
      var parsed := parse(variables.value.s);
      if parsed.None? {
        return Failure(InvalidVariables);
      }
      variables := parsed;
    }
    var response := RunItem(engine, options, requestParams.query, variables,
                            requestParams.operationName, debugDefault);
    if response.Failure? {
      return Failure(ItemThrew(response.error));
    }
    r := Success(response.value);
  }

  /** The loop over the items: runs them in order, collecting their
      responses, until one of them stops it. */
  method RunItems(engine: Engine, parse: JsonParser, options: ApolloOptions,
                  b: seq<RequestParams>, debugDefault: bool) returns (r: Result<seq<Response>, ItemStop>)
    ensures r == ItemResponses(engine, parse, options, b, debugDefault)
  {
    ghost var step := Step(engine, parse, options, debugDefault);
    var responses: seq<Response> := [];
    for i := 0 to |b|
      invariant Traverse(step, b[..i]) == Success(responses)
    {
      assert b[..i + 1][..i] == b[..i];
      var response := RunStep(engine, parse, options, debugDefault, b[i]);
      assert step(b[i]) == response;
      if response.Failure? {
        TraversePrefixFailure(step, b, i + 1);
        return Failure(response.error);
      }
      responses := responses + [response.value];
    }
    assert b[..|b|] == b;
    r := Success(responses);
  }

  /** The middleware's request handler. When the options function rejects,
      the 500 response is ended but the handler does not return: it goes on to
      read `formatError` of the absent options object, throws, and its promise
      rejects. When `formatErrorFn` throws on an item's error, the handler's
      promise rejects with nothing written. */
  method Handle(engine: Engine, parse: JsonParser, source: OptionsSource,
                request: HttpRequest, debugDefault: bool) returns (res: ServerResponse)
    ensures res == Handled(engine, parse, source, request, debugDefault)
  {
    var optionsObject: ApolloOptions;
    if source.OptionsFunction? {
      var resolved := source.resolve(request);
      if resolved.Failure? {
        return ServerResponse(500, map[], Text(INVALID_OPTIONS_PREFIX + resolved.error.message), true);
      }
      optionsObject := resolved.value;
    } else {
      optionsObject := source.options;
    }
    if request.verb != "POST" {
      return ServerResponse(405, map["Allow" := "POST"], Text(ONLY_POST_MESSAGE), false);
    }
    if request.body.None? {
      return ServerResponse(500, map[], Text(BODY_MISSING_MESSAGE), false);
    }
    var b: seq<RequestParams>;
    var isBatch := true;
    match request.body.value {
      case Batch(items) => b := items;
      case Single(params) =>
        isBatch := false;
        b := [params];
    }
    assert b == Items(request.body.value);
    var ran := RunItems(engine, parse, optionsObject, b, debugDefault);
    if ran.Failure? {
      if ran.error.InvalidVariables? {
        return ServerResponse(400, map[], Text(INVALID_VARIABLES_MESSAGE), false);
      }
      return ServerResponse(200, map[], Nothing, true);
    }
    var responses := ran.value;
    var headers := map["Content-Type" := JSON_CONTENT_TYPE];
    if isBatch {
      return ServerResponse(200, headers, ResponseList(responses), false);
    }
    var gqlResponse := responses[0];
    var status := 200;
    if IsRequestError(gqlResponse) {
      status := 400;
    }
    res := ServerResponse(status, headers, SingleResponse(gqlResponse), false);
  }

  /** A rejecting options function gives 500 with its message, whatever the
      request, and the handler's promise rejects afterwards. */
  lemma OptionsRejected(engine: Engine, parse: JsonParser, source: OptionsSource,
                        request: HttpRequest, debugDefault: bool)
    requires source.OptionsFunction? && source.resolve(request).Failure?
    ensures Handled(engine, parse, source, request, debugDefault)
      == ServerResponse(500, map[], Text(INVALID_OPTIONS_PREFIX + source.resolve(request).error.message), true)
  {
  }

  /** Options given as a value behave as a function that always resolves to
      that value. */
  lemma StaticOptionsUsedAsIs(engine: Engine, parse: JsonParser, options: ApolloOptions,
                              request: HttpRequest, debugDefault: bool)
    ensures Handled(engine, parse, StaticOptions(options), request, debugDefault)
      == Handled(engine, parse, OptionsFunction(_ => Success(options)), request, debugDefault)
  {
  }

  /** A request that is not a POST gets 405 with `Allow: POST`; no item runs,
      so neither the engine nor the body matters. */
  lemma NotPostRejected(engine: Engine, engine': Engine, parse: JsonParser, source: OptionsSource,
                        request: HttpRequest, debugDefault: bool)
    requires ResolveOptions(source, request).Success?
    requires request.verb != "POST"
    ensures Handled(engine, parse, source, request, debugDefault)
      == ServerResponse(405, map["Allow" := "POST"], Text(ONLY_POST_MESSAGE), false)
      == Handled(engine', parse, source, request, debugDefault)
  {
  }

  /** A POST without a parsed body gets 500; no item runs. */
  lemma MissingBodyRejected(engine: Engine, engine': Engine, parse: JsonParser, source: OptionsSource,
                            request: HttpRequest, debugDefault: bool)
    requires ResolveOptions(source, request).Success?
    requires request.verb == "POST" && request.body.None?
    ensures Handled(engine, parse, source, request, debugDefault)
      == ServerResponse(500, map[], Text(BODY_MISSING_MESSAGE), false)
      == Handled(engine', parse, source, request, debugDefault)
  {
  }

  /** The items run in order: once the items before it have run, an item
      whose `variables` string is not valid JSON ends the whole request with
      400, discarding the responses of the items before it and never running
      those after it. */
  lemma InvalidVariablesAbortRequest(engine: Engine, parse: JsonParser, source: OptionsSource,
                                     request: HttpRequest, debugDefault: bool, k: nat)
    requires ResolveOptions(source, request).Success?
    requires request.verb == "POST" && request.body.Some?
    requires k < |Items(request.body.value)|
    requires var v := Items(request.body.value)[k].variables;
      v.Some? && v.value.JString? && parse(v.value.s).None?
    requires forall j :: 0 <= j < k ==>
      ItemStep(engine, parse, ResolveOptions(source, request).value, debugDefault, Items(request.body.value)[j]).Success?
    ensures Handled(engine, parse, source, request, debugDefault)
      == ServerResponse(400, map[], Text(INVALID_VARIABLES_MESSAGE), false)
  {
    var step := Step(engine, parse, ResolveOptions(source, request).value, debugDefault);
    TraverseFirstFailure(step, Items(request.body.value), k);
  }

  /** Once the items before it have run, an item whose error `formatErrorFn`
      throws on makes the handler's promise reject, with nothing written. */
  lemma ItemThrowRejects(engine: Engine, parse: JsonParser, source: OptionsSource,
                         request: HttpRequest, debugDefault: bool, k: nat)
    requires ResolveOptions(source, request).Success?
    requires request.verb == "POST" && request.body.Some?
    requires k < |Items(request.body.value)|
    requires var options := ResolveOptions(source, request).value;
      var p := Items(request.body.value)[k];
      && ExpressVariables(parse, p.variables).Variables?
      && ItemResponse(engine, options, p.query, ExpressVariables(parse, p.variables).value,
                      p.operationName, debugDefault).Failure?
    requires forall j :: 0 <= j < k ==>
      ItemStep(engine, parse, ResolveOptions(source, request).value, debugDefault, Items(request.body.value)[j]).Success?
    ensures Handled(engine, parse, source, request, debugDefault) == ServerResponse(200, map[], Nothing, true)
  {
    var step := Step(engine, parse, ResolveOptions(source, request).value, debugDefault);
    TraverseFirstFailure(step, Items(request.body.value), k);
  }

  /** When every item runs to a response: an array body is answered with
      status 200 and one response per item, in order; a single object with its
      one response, and status 400 exactly when that response has errors and
      no data. */
  lemma ResponsePerItem(engine: Engine, parse: JsonParser, source: OptionsSource,
                        request: HttpRequest, debugDefault: bool)
    requires ResolveOptions(source, request).Success?
    requires request.verb == "POST" && request.body.Some?
    requires forall k :: 0 <= k < |Items(request.body.value)| ==>
      ItemStep(engine, parse, ResolveOptions(source, request).value, debugDefault, Items(request.body.value)[k]).Success?
    ensures var res := Handled(engine, parse, source, request, debugDefault);
      var options := ResolveOptions(source, request).value;
      var items := Items(request.body.value);
      && res.headers == map["Content-Type" := JSON_CONTENT_TYPE]
      && !res.rejected
      && (request.body.value.Batch? ==>
            && res.statusCode == 200
            && res.payload.ResponseList?
            && |res.payload.responses| == |items|
            && forall k :: 0 <= k < |items| ==>
                 && ExpressVariables(parse, items[k].variables).Variables?
                 && Success(res.payload.responses[k])
                    == ItemResponse(engine, options, items[k].query,
                                    ExpressVariables(parse, items[k].variables).value,
                                    items[k].operationName, debugDefault))
      && (request.body.value.Single? ==>
            && res.payload.SingleResponse?
            && ExpressVariables(parse, items[0].variables).Variables?
            && Success(res.payload.response)
               == ItemResponse(engine, options, items[0].query,
                               ExpressVariables(parse, items[0].variables).value,
                               items[0].operationName, debugDefault)
            && (res.statusCode == 400 <==> IsRequestError(res.payload.response))
            && (res.statusCode == 200 <==> !IsRequestError(res.payload.response)))
  {
    var options := ResolveOptions(source, request).value;
    var items := Items(request.body.value);
    var step := Step(engine, parse, options, debugDefault);
    assert forall k :: 0 <= k < |items| ==> step(items[k]) == ItemStep(engine, parse, options, debugDefault, items[k]);
  }

  /** In a batch whose items all run, an item whose `formatParams` throws or
      whose run rejects is answered with that one formatted error, and its
      siblings are answered as if it were absent. */
  lemma RejectedItemIsolated(engine: Engine, parse: JsonParser, options: ApolloOptions,
                             items: seq<RequestParams>, debugDefault: bool, k: nat)
    requires forall j :: 0 <= j < |items| ==> ItemStep(engine, parse, options, debugDefault, items[j]).Success?
    requires k < |items|
    requires var p := items[k];
      && ExpressVariables(parse, p.variables).Variables?
      && CaughtError(engine, options, p.query, ExpressVariables(parse, p.variables).value,
                     p.operationName, debugDefault).Some?
    ensures var p := items[k];
      var e := CaughtError(engine, options, p.query, ExpressVariables(parse, p.variables).value,
                           p.operationName, debugDefault).value;
      var responses := Handled(engine, parse, StaticOptions(options),
                               HttpRequest("POST", Some(Batch(items))), debugDefault).payload.responses;
      && responses[k] == ErrorsOnly([ChosenFormatter(engine, options.formatError)(e).value])
      && responses[..k] + responses[k + 1..]
         == Handled(engine, parse, StaticOptions(options),
                    HttpRequest("POST", Some(Batch(items[..k] + items[k + 1..]))), debugDefault).payload.responses
  {
    var others := items[..k] + items[k + 1..];
    var step := Step(engine, parse, options, debugDefault);
    assert forall j :: 0 <= j < |items| ==> step(items[j]) == ItemStep(engine, parse, options, debugDefault, items[j]);
    TraverseRemove(step, items, k);
    assert forall j :: 0 <= j < |others| ==> step(others[j]) == ItemStep(engine, parse, options, debugDefault, others[j]);
    BatchResponses(engine, parse, options, items, debugDefault);
    BatchResponses(engine, parse, options, others, debugDefault);
    var p := items[k];
    CaughtItem(engine, options, p.query, ExpressVariables(parse, p.variables).value, p.operationName, debugDefault);
  }

  /** A batch whose items all run is answered with the list of their responses. */
  lemma BatchResponses(engine: Engine, parse: JsonParser, options: ApolloOptions,
                       items: seq<RequestParams>, debugDefault: bool)
    requires forall j :: 0 <= j < |items| ==> ItemStep(engine, parse, options, debugDefault, items[j]).Success?
    ensures ItemResponses(engine, parse, options, items, debugDefault).Success?
    ensures Handled(engine, parse, StaticOptions(options), HttpRequest("POST", Some(Batch(items))), debugDefault).payload
      == ResponseList(ItemResponses(engine, parse, options, items, debugDefault).value)
  {
    var step := Step(engine, parse, options, debugDefault);
    assert forall j :: 0 <= j < |items| ==> step(items[j]) == ItemStep(engine, parse, options, debugDefault, items[j]);
  }
}

=== FILE: graphql.dfy ===
/** The GraphQL engine the server delegates to, seen from outside.

    Parsing, validation, execution, printing and error formatting are done by
    the `graphql` library, which is not part of this model. Each of them is a
    field of `Engine`, a record of total functions that every operation of the
    model receives as a parameter, so nothing is assumed about them beyond
    their types. */
module GraphQL {
  import opened Wrappers

  /** A JSON value: request bodies, variables, `data`, formatted errors.
      Numbers are JSON doubles; the model only carries them, so an `int`
      stands for any of them.
      JavaScript's `undefined` is not a JSON value; where the source tells it
      apart, the model uses `Option<Json>` and `None`. */
  datatype Json =
    | JNull
    | JBool(b: bool)
    | JNumber(n: int)
    | JString(s: string)
    | JArray(items: seq<Json>)
    | JObject(fields: map<string, Json>)

  /** A thrown error (a JavaScript `Error` or a `GraphQLError`): its message and
      its stack trace, which only the diagnostic log may show. */
  datatype Error = Error(message: string, stack: string)

  /** The `kind` of a top-level definition that is a query, mutation or subscription. */
  const OPERATION_DEFINITION: string := "OperationDefinition"

  /** A top-level definition of a parsed document: its AST node kind and, for an
      operation, its name (anonymous operations have none). */
  datatype Definition = Definition(kind: string, name: Option<string>)

  /** A parsed GraphQL document. */
  datatype Document = Document(definitions: seq<Definition>)

  /** An opaque handle on a GraphQL schema. */
  datatype Schema = Schema(id: nat)

  /** An opaque validation rule. */
  datatype ValidationRule = ValidationRule(name: string)

  /** What `execute` resolves to: possibly partial `data` and the field errors. */
  datatype ExecutionResult = ExecutionResult(data: Option<Json>, errors: Option<seq<Error>>)

  /** A function that formats an error, or throws. */
  type ErrorFormatter = Error -> Result<Json, Error>

  /** The engine's operations.
      - `parse` fails with a syntax error;
      - `validate(schema, document, rules)` lists every rule violation, or
        throws (a rule of the caller's may throw, as may the library itself);
      - `specifiedRules` is the standard rule set `validate` uses by default;
      - `execute(schema, document, rootValue, context, variables, operationName)`
        returns the execution result or throws synchronously; the document is
        absent (`undefined`) when a query without text reaches it;
      - `printDocument` (`print`) renders a document back to query text; it
        may also be handed an absent document, and then returns nothing or
        throws, as the engine decides;
      - `formatError` is the default error formatter. */
  datatype Engine = Engine(
    parse: string -> Result<Document, Error>,
    validate: (Schema, Document, seq<ValidationRule>) -> Result<seq<Error>, Error>,
    specifiedRules: seq<ValidationRule>,
    execute: (Schema, Option<Document>, Option<Json>, Option<Json>, Option<Json>, Option<string>) -> Result<ExecutionResult, Error>,
    printDocument: Option<Document> -> Result<Option<string>, Error>,
    formatError: ErrorFormatter)
}

=== FILE: hapi_apollo.dfy ===
/** The hapi plugin: a POST route whose pre-handlers run in order
    (`verifyPayload`, `getGraphQLParams`, `getApolloOptions`, `processQuery`),
    the first one to reply with an error ending the request, then the route
    handler; and the GraphiQL route's parameter defaults. */
module HapiApollo {
  import opened Wrappers
  import opened GraphQL
  import opened RunQuery
  import opened Integrations
  import ExpressApollo

  const PAYLOAD_MISSING_MESSAGE: string := "POST body missing."

  /** A Boom error: the status code it is created with and the message put in
      its payload. */
  datatype BoomError = BoomError(statusCode: nat, message: string)

  /** One record handed from `getGraphQLParams` to `processQuery`. */
  datatype GraphQLParams = GraphQLParams(query: Option<string>, variables: Option<Json>, operationName: Option<string>)

  /** What the route replies with. */
  datatype ReplyPayload = BoomPayload(error: BoomError) | SingleReply(response: Response) | ListReply(responses: seq<Response>)

  /** The reply: status code (200 unless set) and payload. */
  datatype Reply = Reply(statusCode: nat, payload: ReplyPayload)

  /** `verifyPayload`: a Boom 500 for a missing payload, else whether it is a batch. */
  function VerifyPayload(payload: Option<Body>): Result<bool, BoomError>
  {
    if payload.None? then Failure(BoomError(500, PAYLOAD_MISSING_MESSAGE))
    else Success(payload.value.Batch?)
  }

  /** hapi parses only a non-empty string `variables`; the empty string and
      non-strings pass through. */
  function HapiVariables(parse: JsonParser, variables: Option<Json>): ParsedVariables
  {
    if variables.Some? && variables.value.JString? && variables.value.s != "" then
      (var parsed := parse(variables.value.s); if parsed.Some? then Variables(parsed) else InvalidJson)
    else Variables(variables)
  }

  predicate SomeVariablesInvalid(parse: JsonParser, items: seq<RequestParams>)
  {
    exists k :: 0 <= k < |items| && HapiVariables(parse, items[k].variables).InvalidJson?
  }

  /** What `getGraphQLParams` replies with for a payload. */
  function GraphQLParamsOf(parse: JsonParser, payload: Body): Result<seq<GraphQLParams>, BoomError>
  {
    var items := Items(payload);
    if SomeVariablesInvalid(parse, items) then Failure(BoomError(400, INVALID_VARIABLES_MESSAGE))
    else Success(seq(|items|, k requires 0 <= k < |items| =>
                   GraphQLParams(items[k].query, HapiVariables(parse, items[k].variables).value,
                                 items[k].operationName)))
  }

  /** `getGraphQLParams(payload, isBatch)`. */
  method GetGraphQLParams(parse: JsonParser, payload: Body, isBatch: bool)
    returns (r: Result<seq<GraphQLParams>, BoomError>)
    requires isBatch == payload.Batch?
    ensures r == GraphQLParamsOf(parse, payload)
  {
    var items: seq<RequestParams>;
    if !isBatch {
      items := [payload.params];
    } else {
      items := payload.items;
    }
    assert items == Items(payload);
    var params: seq<GraphQLParams> := [];
    for i := 0 to |items|
      invariant |params| == i
      invariant forall k :: 0 <= k < i ==>
        && HapiVariables(parse, items[k].variables).Variables?
        && params[k] == GraphQLParams(items[k].query, HapiVariables(parse, items[k].variables).value,
                                      items[k].operationName)
    {
      var query := items[i];
      var variables := query.variables;
      if variables.Some? && variables.value.JString? && variables.value.s != "" {
        var parsed := parse(variables.value.s);
        if parsed.None? {
          assert HapiVariables(parse, items[i].variables).InvalidJson?;
          assert SomeVariablesInvalid(parse, items);
          return Failure(BoomError(400, INVALID_VARIABLES_MESSAGE));
        }
        variables := parsed;
      }
      params := params + [GraphQLParams(query.query, variables, query.operationName)];
    }
    assert !SomeVariablesInvalid(parse, items);
    assert params == GraphQLParamsOf(parse, payload).value;
    r := Success(params);
  }

  /** `getApolloOptions`: the options value, or what the options function
      resolves to; a rejection becomes a Boom 500 with its message. */
  function GetApolloOptions(source: OptionsSource, request: HttpRequest): Result<ApolloOptions, BoomError>
  {
    match ResolveOptions(source, request)
    case Failure(e) => Failure(BoomError(500, INVALID_OPTIONS_PREFIX + e.message))
    case Success(options) => Success(options)
  }

  /** One turn of `processQuery`'s loop: the record's response, or what
      `formatErrorFn` throws inside the per-record `catch`. */
  function Step(engine: Engine, options: ApolloOptions, debugDefault: bool): GraphQLParams -> Result<Response, Error>
  {
    (query: GraphQLParams) => ItemResponse(engine, options, query.query, query.variables, query.operationName, debugDefault)
  }

  /** The responses `processQuery` collects, or the throw that ends its loop
      and rejects its promise. */
  function ProcessedResponses(engine: Engine, graphqlParams: seq<GraphQLParams>,
                              options: ApolloOptions, debugDefault: bool): Result<seq<Response>, Error>
  {
    Traverse(Step(engine, options, debugDefault), graphqlParams)
  }

  /** `processQuery`: runs the records in order, one response each; what
      `formatParams` or the query runner throws is caught per record, and what
      `formatErrorFn` throws there ends the loop. */
  method ProcessQuery(engine: Engine, graphqlParams: seq<GraphQLParams>, options: ApolloOptions,
                      debugDefault: bool) returns (r: Result<seq<Response>, Error>)
    ensures r == ProcessedResponses(engine, graphqlParams, options, debugDefault)
  {
    ghost var step := Step(engine, options, debugDefault);
    var responses: seq<Response> := [];
    for i := 0 to |graphqlParams|
      invariant Traverse(step, graphqlParams[..i]) == Success(responses)
    {
      assert graphqlParams[..i + 1][..i] == graphqlParams[..i];
      var query := graphqlParams[i];
      var response := RunItem(engine, options, query.query, query.variables, query.operationName, debugDefault);
      assert step(graphqlParams[i]) == response;
      if response.Failure? {
        TraversePrefixFailure(step, graphqlParams, i + 1);
        return Failure(response.error);
      }
      responses := responses + [response.value];
    }
    assert graphqlParams[..|graphqlParams|] == graphqlParams;
    r := Success(responses);
  }

  /** The route handler: the whole list for a batch, else the first response,
      with status 400 when it has errors and no data. */
  function Handler(isBatch: bool, responses: seq<Response>): Reply
    requires !isBatch ==> |responses| >= 1
  {
    if isBatch then Reply(200, ListReply(responses))
    else if IsRequestError(responses[0]) then Reply(400, SingleReply(responses[0]))
    else Reply(200, SingleReply(responses[0]))
  }

  /** The POST route: pre-handlers in order, the first error replied as is;
      when `processQuery` rejects, no reply is given (`Failure`). */
  function RouteReply(engine: Engine, parse: JsonParser, source: OptionsSource,
                      request: HttpRequest, debugDefault: bool): Result<Reply, Error>
  {
    match VerifyPayload(request.body)
    case Failure(err) => Success(Reply(err.statusCode, BoomPayload(err)))
    case Success(isBatch) =>
      match GraphQLParamsOf(parse, request.body.value)
      case Failure(err) => Success(Reply(err.statusCode, BoomPayload(err)))
      case Success(graphqlParams) =>
        match GetApolloOptions(source, request)
        case Failure(err) => Success(Reply(err.statusCode, BoomPayload(err)))
        case Success(options) =>
          match ProcessedResponses(engine, graphqlParams, options, debugDefault)
          case Failure(e) => Failure(e)
          case Success(responses) => Success(Handler(isBatch, responses))
  }

  /** Runs the route for one request. */
  method Route(engine: Engine, parse: JsonParser, source: OptionsSource,
               request: HttpRequest, debugDefault: bool) returns (reply: Result<Reply, Error>)
    ensures reply == RouteReply(engine, parse, source, request, debugDefault)
  {
    var isBatch := VerifyPayload(request.body);
    if isBatch.Failure? {
      return Success(Reply(isBatch.error.statusCode, BoomPayload(isBatch.error)));
    }
    var graphqlParams := GetGraphQLParams(parse, request.body.value, isBatch.value);
    if graphqlParams.Failure? {
      return Success(Reply(graphqlParams.error.statusCode, BoomPayload(graphqlParams.error)));
    }
    var apolloOptions := GetApolloOptions(source, request);
    if apolloOptions.Failure? {
      return Success(Reply(apolloOptions.error.statusCode, BoomPayload(apolloOptions.error)));
    }
    var graphQL := ProcessQuery(engine, graphqlParams.value, apolloOptions.value, debugDefault);
    if graphQL.Failure? {
      return Failure(graphQL.error);
    }
    reply := Success(Handler(isBatch.value, graphQL.value));
  }

  /** `verifyPayload` and `getGraphQLParams` together: a payload is accepted
      unless it is missing; an array gives one record per element, in order,
      and an object one record; a non-empty `variables` string is replaced by
      the value it denotes and everything else passes through unchanged. */
  lemma ParamsPerItem(parse: JsonParser, payload: Option<Body>)
    ensures VerifyPayload(payload).Failure? <==> payload.None?
    ensures payload.None? ==> VerifyPayload(payload).error == BoomError(500, PAYLOAD_MISSING_MESSAGE)
    ensures payload.Some? ==>
      && (VerifyPayload(payload).value <==> payload.value.Batch?)
      && var r := GraphQLParamsOf(parse, payload.value);
         && (r.Failure? ==> r.error == BoomError(400, INVALID_VARIABLES_MESSAGE))
         && (r.Success? ==>
               && |r.value| == (if payload.value.Batch? then |payload.value.items| else 1)
               && forall k :: 0 <= k < |r.value| ==>
                    var item := Items(payload.value)[k];
                    && r.value[k].query == item.query
                    && r.value[k].operationName == item.operationName
                    && (item.variables.Some? && item.variables.value.JString? && item.variables.value.s != "" ==>
                          r.value[k].variables == parse(item.variables.value.s))
                    && (!(item.variables.Some? && item.variables.value.JString? && item.variables.value.s != "") ==>
                          r.value[k].variables == item.variables))
  {
  }

  /** One non-empty `variables` string that is not valid JSON fails the whole
      request with 400 before any record runs, whatever the options and the
      other items. */
  lemma InvalidVariablesAbortRequest(engine: Engine, parse: JsonParser, source: OptionsSource,
                                     request: HttpRequest, debugDefault: bool, k: nat)
    requires request.body.Some?
    requires k < |Items(request.body.value)|
    requires var v := Items(request.body.value)[k].variables;
      v.Some? && v.value.JString? && v.value.s != "" && parse(v.value.s).None?
    ensures RouteReply(engine, parse, source, request, debugDefault)
      == Success(Reply(400, BoomPayload(BoomError(400, INVALID_VARIABLES_MESSAGE))))
  {
    assert HapiVariables(parse, Items(request.body.value)[k].variables).InvalidJson?;
  }

  /** A rejecting options function gives a Boom 500 with its message once the
      payload has passed the earlier pre-handlers. */
  lemma OptionsRejected(engine: Engine, parse: JsonParser, source: OptionsSource,
                        request: HttpRequest, debugDefault: bool)
    requires request.body.Some? && GraphQLParamsOf(parse, request.body.value).Success?
    requires source.OptionsFunction? && source.resolve(request).Failure?
    ensures var message := INVALID_OPTIONS_PREFIX + source.resolve(request).error.message;
      RouteReply(engine, parse, source, request, debugDefault) == Success(Reply(500, BoomPayload(BoomError(500, message))))
  {
  }

  /** Past the pre-handlers: when every record runs to a response, the reply
      holds one response per record, in order; a batch is answered with the
      whole list, a single object with its response and status 400 exactly
      when that response has errors and no data. When a record's error makes
      `formatErrorFn` throw, no reply is given, and the throw is the one of
      the first such record. */
  lemma RouteResponses(engine: Engine, parse: JsonParser, source: OptionsSource,
                       request: HttpRequest, debugDefault: bool)
    requires request.body.Some?
    requires GraphQLParamsOf(parse, request.body.value).Success?
    requires ResolveOptions(source, request).Success?
    ensures var reply := RouteReply(engine, parse, source, request, debugDefault);
      var graphqlParams := GraphQLParamsOf(parse, request.body.value).value;
      var options := ResolveOptions(source, request).value;
      var responses := RecordResponses(engine, graphqlParams, options, debugDefault);
      && (reply.Success? <==> forall k :: 0 <= k < |responses| ==> responses[k].Success?)
      && (reply.Failure? ==>
            exists k :: && 0 <= k < |responses|
                        && responses[k] == Failure(reply.error)
                        && forall j :: 0 <= j < k ==> responses[j].Success?)
      && (reply.Success? && request.body.value.Batch? ==>
            && reply.value.statusCode == 200
            && reply.value.payload.ListReply?
            && |reply.value.payload.responses| == |graphqlParams| == |request.body.value.items|
            && forall k :: 0 <= k < |graphqlParams| ==> Success(reply.value.payload.responses[k]) == responses[k])
      && (reply.Success? && request.body.value.Single? ==>
            && reply.value.payload.SingleReply?
            && Success(reply.value.payload.response) == responses[0]
            && (reply.value.statusCode == 400 <==> IsRequestError(reply.value.payload.response))
            && (reply.value.statusCode == 200 <==> !IsRequestError(reply.value.payload.response)))
  {
    var graphqlParams := GraphQLParamsOf(parse, request.body.value).value;
    var options := ResolveOptions(source, request).value;
    ProcessedPerRecord(engine, graphqlParams, options, debugDefault);
  }

  /** What each record's run gives, in order. */
  function RecordResponses(engine: Engine, graphqlParams: seq<GraphQLParams>, options: ApolloOptions,
                           debugDefault: bool): seq<Result<Response, Error>>
  {
    seq(|graphqlParams|, k requires 0 <= k < |graphqlParams| =>
      ItemResponse(engine, options, graphqlParams[k].query, graphqlParams[k].variables,
                   graphqlParams[k].operationName, debugDefault))
  }

  /** `processQuery` resolves to every record's response, in order, when no
      record's run throws, and otherwise rejects with the first throw. */
  lemma ProcessedPerRecord(engine: Engine, graphqlParams: seq<GraphQLParams>, options: ApolloOptions,
                           debugDefault: bool)
    ensures var r := ProcessedResponses(engine, graphqlParams, options, debugDefault);
      var responses := RecordResponses(engine, graphqlParams, options, debugDefault);
      && (r.Success? <==> forall k :: 0 <= k < |responses| ==> responses[k].Success?)
      && (r.Success? ==> |r.value| == |responses| && forall k :: 0 <= k < |responses| ==> Success(r.value[k]) == responses[k])
      && (r.Failure? ==>
            exists k :: && 0 <= k < |responses|
                        && responses[k] == Failure(r.error)
                        && forall j :: 0 <= j < k ==> responses[j].Success?)
  {
    var step := Step(engine, options, debugDefault);
    var responses := RecordResponses(engine, graphqlParams, options, debugDefault);
    assert forall k :: 0 <= k < |graphqlParams| ==> step(graphqlParams[k]) == responses[k];
  }

  /** The adapters check in different orders: with a rejecting options
      function and an invalid `variables` string, Express answers 500 (and
      its handler rejects) while hapi answers 400. */
  lemma CheckOrderDiffers(engine: Engine, parse: JsonParser, source: OptionsSource,
                          params: RequestParams, debugDefault: bool)
    requires source.OptionsFunction?
    requires source.resolve(HttpRequest("POST", Some(Single(params)))).Failure?
    requires params.variables.Some? && params.variables.value.JString?
    requires params.variables.value.s != "" && parse(params.variables.value.s).None?
    ensures var request := HttpRequest("POST", Some(Single(params)));
      && ExpressApollo.Handled(engine, parse, source, request, debugDefault).statusCode == 500
      && ExpressApollo.Handled(engine, parse, source, request, debugDefault).rejected
      && RouteReply(engine, parse, source, request, debugDefault).Success?
      && RouteReply(engine, parse, source, request, debugDefault).value.statusCode == 400
  {
    var request := HttpRequest("POST", Some(Single(params)));
    InvalidVariablesAbortRequest(engine, parse, source, request, debugDefault, 0);
  }

  /** An empty `variables` string is parsed by Express, which answers 400 when
      the parser refuses it, and passed through by hapi, which runs the
      item with it. */
  lemma EmptyVariablesDiffer(engine: Engine, parse: JsonParser, options: ApolloOptions,
                             query: Option<string>, operationName: Option<string>, debugDefault: bool)
    requires parse("").None?
    ensures var request := HttpRequest("POST", Some(Single(RequestParams(query, Some(JString("")), operationName))));
      var response := ItemResponse(engine, options, query, Some(JString("")), operationName, debugDefault);
      && ExpressApollo.Handled(engine, parse, StaticOptions(options), request, debugDefault).statusCode == 400
      && GraphQLParamsOf(parse, request.body.value) == Success([GraphQLParams(query, Some(JString("")), operationName)])
      && (response.Success? ==>
            RouteReply(engine, parse, StaticOptions(options), request, debugDefault).value.payload
              == SingleReply(response.value))
      && (response.Failure? ==>
            RouteReply(engine, parse, StaticOptions(options), request, debugDefault) == Failure(response.error))
  {
    var request := HttpRequest("POST", Some(Single(RequestParams(query, Some(JString("")), operationName))));
    ExpressApollo.InvalidVariablesAbortRequest(engine, parse, StaticOptions(options), request, debugDefault, 0);
    var graphqlParams := [GraphQLParams(query, Some(JString("")), operationName)];
    assert !SomeVariablesInvalid(parse, Items(request.body.value));
    assert GraphQLParamsOf(parse, request.body.value).value == graphqlParams;
    RouteResponses(engine, parse, StaticOptions(options), request, debugDefault);
    assert RecordResponses(engine, graphqlParams, options, debugDefault)[0]
      == ItemResponse(engine, options, query, Some(JString("")), operationName, debugDefault);
  }

  /** Where neither adapter rejects the request up front (a POST with a body,
      options that resolve, every `variables` string non-empty and valid),
      Express's handler rejects exactly when hapi gives no reply, and
      otherwise both answer with the same status and the same responses. */
  lemma AdaptersAgree(engine: Engine, parse: JsonParser, source: OptionsSource,
                      request: HttpRequest, debugDefault: bool)
    requires request.verb == "POST" && request.body.Some?
    requires ResolveOptions(source, request).Success?
    requires forall k :: 0 <= k < |Items(request.body.value)| ==>
      var v := Items(request.body.value)[k].variables;
      v.Some? && v.value.JString? ==> v.value.s != "" && parse(v.value.s).Some?
    ensures var express := ExpressApollo.Handled(engine, parse, source, request, debugDefault);
      var hapi := RouteReply(engine, parse, source, request, debugDefault);
      && (express.rejected <==> hapi.Failure?)
      && (hapi.Success? ==>
            && express.statusCode == hapi.value.statusCode
            && (request.body.value.Batch? ==>
                  express.payload == ExpressApollo.ResponseList(hapi.value.payload.responses))
            && (request.body.value.Single? ==>
                  express.payload == ExpressApollo.SingleResponse(hapi.value.payload.response)))
  {
    var items := Items(request.body.value);
    var options := ResolveOptions(source, request).value;
    assert !SomeVariablesInvalid(parse, items);
    var graphqlParams := GraphQLParamsOf(parse, request.body.value).value;
    var expressStep := ExpressApollo.Step(engine, parse, options, debugDefault);
    var hapiStep := Step(engine, options, debugDefault);
    forall k | 0 <= k < |items|
      ensures hapiStep(graphqlParams[k]).Success? ==> expressStep(items[k]) == Success(hapiStep(graphqlParams[k]).value)
      ensures hapiStep(graphqlParams[k]).Failure? ==> expressStep(items[k]) == Failure(ExpressApollo.ItemThrew(hapiStep(graphqlParams[k]).error))
    {
      assert ExpressApollo.ExpressVariables(parse, items[k].variables) == HapiVariables(parse, items[k].variables);
    }
    var e := ExpressApollo.ItemResponses(engine, parse, options, items, debugDefault);
    var h := ProcessedResponses(engine, graphqlParams, options, debugDefault);
    if e.Failure? {
      var i :| && 0 <= i < |items|
               && expressStep(items[i]) == Failure(e.error)
               && forall j :: 0 <= j < i ==> expressStep(items[j]).Success?;
      assert e.error.ItemThrew?;
    }
  }

  /** The parameters the GraphiQL page is rendered with. */
  datatype GraphiQLParams = GraphiQLParams(query: string, variables: string, operationName: string)

  /** `value || fallback` for a query-string entry: absent and empty both fall back. */
  function OrDefault(queryString: map<string, string>, key: string, fallback: string): string
  {
    if key in queryString && queryString[key] != "" then queryString[key] else fallback
  }

  /** `getGraphiQLParams`: the URL's `query`, `variables` and `operationName`,
      defaulting to '', '{}' and ''. */
  function GetGraphiQLParams(queryString: map<string, string>): GraphiQLParams
  {
    GraphiQLParams(OrDefault(queryString, "query", ""),
                   OrDefault(queryString, "variables", "{}"),
                   OrDefault(queryString, "operationName", ""))
  }

  /** Each parameter is the given value when present and non-empty, else its
      default; feeding the result back in changes nothing. */
  lemma GraphiQLDefaults(queryString: map<string, string>)
    ensures var p := GetGraphiQLParams(queryString);
      && (("query" in queryString && queryString["query"] != "") ==> p.query == queryString["query"])
      && (("query" !in queryString || queryString["query"] == "") ==> p.query == "")
      && (("variables" in queryString && queryString["variables"] != "") ==> p.variables == queryString["variables"])
      && (("variables" !in queryString || queryString["variables"] == "") ==> p.variables == "{}")
      && (("operationName" in queryString && queryString["operationName"] != "") ==>
            p.operationName == queryString["operationName"])
      && (("operationName" !in queryString || queryString["operationName"] == "") ==> p.operationName == "")
      && GetGraphiQLParams(map["query" := p.query, "variables" := p.variables,
                               "operationName" := p.operationName]) == p
  {
  }
}

=== FILE: integrations.dfy ===
/** What the HTTP adapters share: the server options, the shape of a request
    body, options given as a value or as a function, and how one body item
    becomes one response. */
module Integrations {
  import opened Wrappers
  import opened GraphQL
  import opened RunQuery

  /** The options a server is configured with. `formatParams` may rewrite the
      options of each query, or throw to reject that query; `formatError` and
      `formatResponse` may throw too. The log function is not a field: the
      log of each run is part of `Run`. */
  datatype ApolloOptions = ApolloOptions(
    schema: Schema,
    formatError: Option<ErrorFormatter>,
    rootValue: Option<Json>,
    context: Option<Json>,
    formatParams: Option<QueryOptions -> Result<QueryOptions, Error>>,
    validationRules: Option<seq<ValidationRule>>,
    formatResponse: Option<(Response, QueryFields) -> Result<Response, Error>>,
    debug: Option<bool>)

  /** One item of a request body: `query`, `variables` (possibly a JSON-encoded
      string), `operationName`. */
  datatype RequestParams = RequestParams(query: Option<string>, variables: Option<Json>, operationName: Option<string>)

  /** A parsed request body: one object, or an array of them (a batch). */
  datatype Body = Single(params: RequestParams) | Batch(items: seq<RequestParams>)

  /** An HTTP request as the adapters see it: its method (`verb`) and its parsed body,
      absent when no body parser ran. */
  datatype HttpRequest = HttpRequest(verb: string, body: Option<Body>)

  /** The options argument: a value, or a function of the request that may
      reject (the `isOptionsFunction` test picks the variant). */
  datatype OptionsSource =
    | StaticOptions(options: ApolloOptions)
    | OptionsFunction(resolve: HttpRequest -> Result<ApolloOptions, Error>)

  /** `JSON.parse`, given as a parameter: the value a text denotes, or `None`
      when the text is not valid JSON (where `JSON.parse` throws). */
  type JsonParser = string -> Option<Json>

  /** The `variables` an item is run with after the adapter's parsing step, or
      the verdict that its string was not valid JSON. */
  datatype ParsedVariables = InvalidJson | Variables(value: Option<Json>)

  const INVALID_OPTIONS_PREFIX: string := "Invalid options provided to ApolloServer: "
  const INVALID_VARIABLES_MESSAGE: string := "Variables are invalid JSON."

  /** The options of this request: the value itself, or what the function
      resolves to or rejects with. */
  function ResolveOptions(source: OptionsSource, request: HttpRequest): Result<ApolloOptions, Error>
  {
    match source
    case StaticOptions(options) => Success(options)
    case OptionsFunction(resolve) => resolve(request)
  }

  /** The body as a list of items: an array as it is, one object as a list of one. */
  function Items(body: Body): seq<RequestParams>
  {
    match body
    case Single(params) => [params]
    case Batch(items) => items
  }

  function QueryValueOf(query: Option<string>): QueryValue
  {
    if query.Some? then QueryString(query.value) else QueryUndefined
  }

  /** The options of one query, built from the server options and one item,
      before `formatParams`; its `formatError` is always `formatErrorFn`. */
  function ItemQueryOptions(engine: Engine, options: ApolloOptions, query: Option<string>,
                            variables: Option<Json>, operationName: Option<string>): QueryOptions
  {
    QueryOptions(
      QueryFields(options.schema, QueryValueOf(query), options.rootValue, options.context,
                  variables, operationName, options.validationRules, options.debug),
      Some(ChosenFormatter(engine, options.formatError)),
      options.formatResponse)
  }

  /** The options `formatParams` hands to the query runner, or what it throws. */
  function FormattedParams(engine: Engine, options: ApolloOptions, query: Option<string>,
                           variables: Option<Json>, operationName: Option<string>): Result<QueryOptions, Error>
  {
    var params := ItemQueryOptions(engine, options, query, variables, operationName);
    if options.formatParams.Some? then options.formatParams.value(params) else Success(params)
  }

  /** The response to one item: the query's own response, or, when
      `formatParams` or the run throws, that one error through `formatErrorFn`;
      a throw from `formatErrorFn` itself escapes the adapter's `catch`. */
  function ItemResponse(engine: Engine, options: ApolloOptions, query: Option<string>,
                        variables: Option<Json>, operationName: Option<string>,
                        debugDefault: bool): Result<Response, Error>
  {
    var formatErrorFn := ChosenFormatter(engine, options.formatError);
    match FormattedParams(engine, options, query, variables, operationName)
    case Failure(e) => ErrorsResponse(Format(formatErrorFn, [e]))
    case Success(params) =>
      match QueryRun(engine, params, debugDefault).outcome
      case Failure(e) => ErrorsResponse(Format(formatErrorFn, [e]))
      case Success(response) => Success(response)
  }

  /** Runs one item inside the adapters' per-item `try`: builds its options,
      applies `formatParams`, runs the query and catches what either throws. */
  method RunItem(engine: Engine, options: ApolloOptions, query: Option<string>,
                 variables: Option<Json>, operationName: Option<string>, debugDefault: bool)
    returns (response: Result<Response, Error>)
    ensures response == ItemResponse(engine, options, query, variables, operationName, debugDefault)
  {
    var formatErrorFn := ChosenFormatter(engine, options.formatError);
    var params := ItemQueryOptions(engine, options, query, variables, operationName);
    if options.formatParams.Some? {
      var formatted := options.formatParams.value(params);
      if formatted.Failure? {
        return ErrorsResponse(Format(formatErrorFn, [formatted.error]));
      }
      params := formatted.value;
    }
    var run := DoRunQuery(engine, params, debugDefault);
    if run.outcome.Failure? {
      return ErrorsResponse(Format(formatErrorFn, [run.outcome.error]));
    }
    response := Success(run.outcome.value);
  }

  /** An item that `formatParams` rejects is answered with exactly that error,
      formatted by `formatErrorFn`, and no data; if `formatErrorFn` throws on
      it, the item throws that. */
  lemma RejectedItem(engine: Engine, options: ApolloOptions, query: Option<string>,
                     variables: Option<Json>, operationName: Option<string>, debugDefault: bool)
    requires options.formatParams.Some?
    requires options.formatParams.value(ItemQueryOptions(engine, options, query, variables, operationName)).Failure?
    ensures var e := options.formatParams.value(ItemQueryOptions(engine, options, query, variables, operationName)).error;
      var formatted := ChosenFormatter(engine, options.formatError)(e);
      var r := ItemResponse(engine, options, query, variables, operationName, debugDefault);
      && (formatted.Success? ==> r == Success(Response(None, Some([formatted.value]), None)))
      && (formatted.Failure? ==> r == Failure(formatted.error))
  {
    var e := options.formatParams.value(ItemQueryOptions(engine, options, query, variables, operationName)).error;
    var formatted := Format(ChosenFormatter(engine, options.formatError), [e]);
    if formatted.Success? {
      assert formatted.value == [formatted.value[0]];
    }
  }

  /** What the adapters' per-item `catch` receives: the throw of
      `formatParams`, or the run's rejection (a throw from printing,
      validation, a formatter or `formatResponse`); `None` when the run
      resolves. */
  function CaughtError(engine: Engine, options: ApolloOptions, query: Option<string>,
                       variables: Option<Json>, operationName: Option<string>,
                       debugDefault: bool): Option<Error>
  {
    match FormattedParams(engine, options, query, variables, operationName)
    case Failure(e) => Some(e)
    case Success(params) =>
      var outcome := QueryRun(engine, params, debugDefault).outcome;
      if outcome.Failure? then Some(outcome.error) else None
  }

  /** An item whose run rejects is answered with exactly that error, formatted
      by `formatErrorFn`, and no data; if `formatErrorFn` throws on it, the
      item throws that. */
  lemma RejectedRun(engine: Engine, options: ApolloOptions, query: Option<string>,
                    variables: Option<Json>, operationName: Option<string>, debugDefault: bool,
                    params: QueryOptions)
    requires FormattedParams(engine, options, query, variables, operationName) == Success(params)
    requires QueryRun(engine, params, debugDefault).outcome.Failure?
    ensures var e := QueryRun(engine, params, debugDefault).outcome.error;
      var formatted := ChosenFormatter(engine, options.formatError)(e);
      var r := ItemResponse(engine, options, query, variables, operationName, debugDefault);
      && (formatted.Success? ==> r == Success(Response(None, Some([formatted.value]), None)))
      && (formatted.Failure? ==> r == Failure(formatted.error))
  {
    var e := QueryRun(engine, params, debugDefault).outcome.error;
    var formatted := Format(ChosenFormatter(engine, options.formatError), [e]);
    if formatted.Success? {
      assert formatted.value == [formatted.value[0]];
    }
  }

  /** The per-item `try`: whatever is caught, from `formatParams` or from the
      run, is answered with that one error through `formatErrorFn` and no
      data, or escapes as `formatErrorFn`'s throw; when nothing is caught, the
      item gets the run's own response. */
  lemma CaughtItem(engine: Engine, options: ApolloOptions, query: Option<string>,
                   variables: Option<Json>, operationName: Option<string>, debugDefault: bool)
    ensures var caught := CaughtError(engine, options, query, variables, operationName, debugDefault);
      var r := ItemResponse(engine, options, query, variables, operationName, debugDefault);
      caught.Some? ==>
        var formatted := ChosenFormatter(engine, options.formatError)(caught.value);
        && (formatted.Success? ==> r == Success(Response(None, Some([formatted.value]), None)))
        && (formatted.Failure? ==> r == Failure(formatted.error))
    ensures CaughtError(engine, options, query, variables, operationName, debugDefault).None? ==>
      var params := FormattedParams(engine, options, query, variables, operationName);
      && params.Success?
      && QueryRun(engine, params.value, debugDefault).outcome.Success?
      && ItemResponse(engine, options, query, variables, operationName, debugDefault)
         == QueryRun(engine, params.value, debugDefault).outcome
  {
    match FormattedParams(engine, options, query, variables, operationName)
    case Failure(e) =>
      var formatted := Format(ChosenFormatter(engine, options.formatError), [e]);
      if formatted.Success? {
        assert formatted.value == [formatted.value[0]];
      }
    case Success(params) =>
      if QueryRun(engine, params, debugDefault).outcome.Failure? {
        RejectedRun(engine, options, query, variables, operationName, debugDefault, params);
      }
  }

  /** The query runner formats errors with the same `formatErrorFn` the
      adapter uses for thrown errors. When nothing throws (no `formatParams`,
      a formatter and a `formatResponse` that always return, a printer and a
      validation that never throw), no item throws: each is answered with the
      runner's own response. */
  lemma ItemWithTotalHooks(engine: Engine, options: ApolloOptions, query: Option<string>,
                           variables: Option<Json>, operationName: Option<string>, debugDefault: bool)
    requires options.formatParams.None?
    requires forall e :: ChosenFormatter(engine, options.formatError)(e).Success?
    requires options.formatResponse.Some? ==>
      forall response, fields :: options.formatResponse.value(response, fields).Success?
    requires forall document :: engine.printDocument(document).Success?
    requires forall schema, document, rules :: engine.validate(schema, document, rules).Success?
    ensures var params := ItemQueryOptions(engine, options, query, variables, operationName);
      && ChosenFormatter(engine, params.formatError) == ChosenFormatter(engine, options.formatError)
      && QueryRun(engine, params, debugDefault).outcome.Success?
      && ItemResponse(engine, options, query, variables, operationName, debugDefault)
         == QueryRun(engine, params, debugDefault).outcome
  {
    var params := ItemQueryOptions(engine, options, query, variables, operationName);
    var formatError := ChosenFormatter(engine, options.formatError);
    var f := params.fields;
    var printed := LoggedQuery(engine, f.query);
    assert printed.Success?;
    var log := Opening(printed.value, f);
    if f.query.QueryString? {
      match engine.parse(f.query.text)
      case Failure(syntaxError) =>
        assert Format(formatError, [syntaxError]).Success?;
      case Success(document) =>
        var errors := engine.validate(f.schema, document, Rules(engine, f)).value;
        var log' := log + [Event(Parse, Start), Event(Parse, End), Event(Validation, Start), Event(Validation, End)];
        assert Format(formatError, errors).Success?;
        ExecutedWithTotalHooks(engine, params, Some(document), DebugEnabled(f, debugDefault), log');
    } else {
      ExecutedWithTotalHooks(engine, params, DocumentOf(f.query), DebugEnabled(f, debugDefault), log);
    }
  }

  /** The execution step never throws when its hooks never do. */
  lemma ExecutedWithTotalHooks(engine: Engine, params: QueryOptions, document: Option<Document>,
                               debug: bool, log: seq<LogMessage>)
    requires forall e :: ChosenFormatter(engine, params.formatError)(e).Success?
    requires params.formatResponse.Some? ==>
      forall response, fields :: params.formatResponse.value(response, fields).Success?
    ensures Executed(engine, params, document, debug, log).outcome.Success?
  {
    var f := params.fields;
    var formatError := ChosenFormatter(engine, params.formatError);
    match engine.execute(f.schema, document, f.rootValue, f.context, f.variables, f.operationName)
    case Failure(e) =>
      assert Format(formatError, [e]).Success?;
    case Success(result) =>
      if result.errors.Some? {
        assert Format(formatError, result.errors.value).Success?;
      }
  }
}

=== FILE: operation_store.dfy ===
/** The operation store: a whitelist from operation name to a parsed,
    validated GraphQL document, so that a server can accept a registered
    operation name from a client instead of raw query text. */
module OperationStore {
  import opened Wrappers
  import opened GraphQL

  /** What `put` accepts: query text, or a document parsed beforehand. */
  datatype Source = SourceText(text: string) | SourceDocument(document: Document)

  /** Why `put` throws. `ValidateThrew` is an error thrown by validation
      itself, which `put` does not catch. `AnonymousOperation` is the crash
      when the single operation has no name: the source reads the name's
      `value` unguarded, so the runtime raises a TypeError and nothing is
      stored. */
  datatype PutError =
    | ParseFailed(syntaxError: Error)
    | NoOperation
    | MultipleOperations
    | ValidationFailed(originalErrors: seq<Error>)
    | ValidateThrew(error: Error)
    | AnonymousOperation

  const NO_OPERATION_MESSAGE: string := "operationDefinition must contain at least one definition"
  const MULTIPLE_OPERATIONS_MESSAGE: string := "operationDefinition must contain only one definition"
  const VALIDATION_ERRORS_PREFIX: string := "Validation Errors:\n"

  /** The parts joined with `sep` between consecutive parts, as `Array.prototype.join` does. */
  function Join(parts: seq<string>, sep: string): string
    decreases |parts|
  {
    if |parts| == 0 then ""
    else if |parts| == 1 then parts[0]
    else parts[0] + sep + Join(parts[1..], sep)
  }

  function Messages(errors: seq<Error>): seq<string>
  {
    seq(|errors|, i requires 0 <= i < |errors| => errors[i].message)
  }

  /** The message of the error `put` throws. The TypeError of an anonymous
      operation comes from the JavaScript runtime, and its text is not part of
      this model. */
  function Message(e: PutError): string
    requires !e.AnonymousOperation?
  {
    match e
    case ParseFailed(syntaxError) => syntaxError.message
    case NoOperation => NO_OPERATION_MESSAGE
    case MultipleOperations => MULTIPLE_OPERATIONS_MESSAGE
    case ValidationFailed(errors) => VALIDATION_ERRORS_PREFIX + Join(Messages(errors), "\n")
    case ValidateThrew(error) => error.message
  }

  predicate IsOperationDefinition(d: Definition)
  {
    d.kind == OPERATION_DEFINITION
  }

  /** The operation definitions of a document, in order (the `filter` of `put`). */
  function OperationDefinitions(defs: seq<Definition>): (ops: seq<Definition>)
    ensures |ops| <= |defs|
    ensures forall d :: d in ops <==> d in defs && IsOperationDefinition(d)
    decreases |defs|
  {
    if |defs| == 0 then []
    else if IsOperationDefinition(defs[0]) then [defs[0]] + OperationDefinitions(defs[1..])
    else OperationDefinitions(defs[1..])
  }

  /** The definition at index `i` is the document's only operation definition. */
  ghost predicate SoleOperationAt(defs: seq<Definition>, i: int)
  {
    && 0 <= i < |defs|
    && IsOperationDefinition(defs[i])
    && forall j :: 0 <= j < |defs| && j != i ==> !IsOperationDefinition(defs[j])
  }

  /** Two distinct definitions of the document are operation definitions. */
  ghost predicate SeveralOperations(defs: seq<Definition>)
  {
    exists i, j :: 0 <= i < j < |defs| && IsOperationDefinition(defs[i]) && IsOperationDefinition(defs[j])
  }

  /** Two distinct operation definitions make the filter keep more than one. */
  lemma {:induction false} SeveralOperationsKept(defs: seq<Definition>)
    requires SeveralOperations(defs)
    ensures |OperationDefinitions(defs)| > 1
    decreases |defs|
  {
    var i, j :| 0 <= i < j < |defs| && IsOperationDefinition(defs[i]) && IsOperationDefinition(defs[j]);
    var rest := defs[1..];
    if i == 0 {
      assert defs[j] == rest[j - 1];
      assert defs[j] in OperationDefinitions(rest);
    } else {
      assert rest[i - 1] == defs[i] && rest[j - 1] == defs[j];
      SeveralOperationsKept(rest);
    }
  }

  /** When the filter keeps more than one definition, two distinct
      definitions are operations. */
  lemma {:induction false} SeveralOperationsWitnessed(defs: seq<Definition>)
    requires |OperationDefinitions(defs)| > 1
    ensures SeveralOperations(defs)
    decreases |defs|
  {
    var rest := defs[1..];
    if IsOperationDefinition(defs[0]) {
      assert OperationDefinitions(defs) == [defs[0]] + OperationDefinitions(rest);
      var d := OperationDefinitions(rest)[0];
      assert d in OperationDefinitions(rest);
      var j :| 0 <= j < |rest| && rest[j] == d;
      assert defs[j + 1] == d;
      assert 0 < j + 1 < |defs| && IsOperationDefinition(defs[0]) && IsOperationDefinition(defs[j + 1]);
    } else {
      assert OperationDefinitions(defs) == OperationDefinitions(rest);
      SeveralOperationsWitnessed(rest);
      var i, j :| 0 <= i < j < |rest| && IsOperationDefinition(rest[i]) && IsOperationDefinition(rest[j]);
      assert defs[i + 1] == rest[i] && defs[j + 1] == rest[j];
      assert 0 <= i + 1 < j + 1 < |defs| && IsOperationDefinition(defs[i + 1]) && IsOperationDefinition(defs[j + 1]);
    }
  }

  /** The filter keeps more than one definition exactly when two distinct
      definitions are operations. */
  lemma SeveralOperationsIff(defs: seq<Definition>)
    ensures |OperationDefinitions(defs)| > 1 <==> SeveralOperations(defs)
  {
    if SeveralOperations(defs) {
      SeveralOperationsKept(defs);
    } else if |OperationDefinitions(defs)| > 1 {
      SeveralOperationsWitnessed(defs);
    }
  }

  /** The filter keeps exactly one definition exactly when the document has a
      sole operation definition, and then it keeps that one. */
  lemma OneOperationIff(defs: seq<Definition>)
    ensures |OperationDefinitions(defs)| == 1 <==> exists i :: SoleOperationAt(defs, i)
    ensures forall i :: SoleOperationAt(defs, i) ==> OperationDefinitions(defs) == [defs[i]]
  {
    var ops := OperationDefinitions(defs);
    if |ops| == 1 {
      if SeveralOperations(defs) {
        SeveralOperationsKept(defs);
      }
      assert ops[0] in ops;
      var i :| 0 <= i < |defs| && defs[i] == ops[0];
      forall j | 0 <= j < |defs| && j != i
        ensures !IsOperationDefinition(defs[j])
      {
        var lo, hi := if i < j then i else j, if i < j then j else i;
        assert !(IsOperationDefinition(defs[lo]) && IsOperationDefinition(defs[hi]));
      }
      assert SoleOperationAt(defs, i);
    }
    forall i | SoleOperationAt(defs, i)
      ensures ops == [defs[i]]
    {
      assert defs[i] in ops;
      if |ops| > 1 {
        SeveralOperationsWitnessed(defs);
      }
      assert ops[0] in ops;
      var k :| 0 <= k < |defs| && defs[k] == ops[0];
      assert k == i;
    }
  }

  /** What a successful `put` stores: the operation's name and the whole document. */
  datatype Registration = Registration(name: string, document: Document)

  /** The document `put` works on: the parse of query text, or the document itself. */
  function ParsedSource(engine: Engine, operation: Source): Result<Document, Error>
  {
    match operation
    case SourceText(text) => engine.parse(text)
    case SourceDocument(document) => Success(document)
  }

  /** The decision `put` takes: which error it throws, or what it stores. The
      arity checks come before validation, and validation uses the engine's
      standard rules against the store's schema. */
  function Register(engine: Engine, schema: Schema, operation: Source): Result<Registration, PutError>
  {
    match ParsedSource(engine, operation)
    case Failure(syntaxError) => Failure(ParseFailed(syntaxError))
    case Success(ast) =>
      var definitions := OperationDefinitions(ast.definitions);
      if |definitions| == 0 then Failure(NoOperation)
      else if |definitions| > 1 then Failure(MultipleOperations)
      else
        match engine.validate(schema, ast, engine.specifiedRules)
        case Failure(e) => Failure(ValidateThrew(e))
        case Success(validationErrors) =>
          if |validationErrors| > 0 then Failure(ValidationFailed(validationErrors))
          else match definitions[0].name
            case None => Failure(AnonymousOperation)
            case Some(name) => Success(Registration(name, ast))
  }

  /** A call that may change the store. */
  datatype StoreCall = PutCall(operation: Source) | DeleteCall(operationName: string)

  /** The mapping after one call. */
  function Apply(engine: Engine, schema: Schema, m: map<string, Document>, call: StoreCall): map<string, Document>
  {
    match call
    case PutCall(operation) =>
      (match Register(engine, schema, operation)
       case Success(reg) => m[reg.name := reg.document]
       case Failure(_) => m)
    case DeleteCall(operationName) => m - {operationName}
  }

  /** A successful `put` maps its name to the whole document and a failed one
      changes nothing; a `delete` removes its name. Every other name keeps its
      entry, so a `get` after a `delete` of the same name finds nothing. */
  lemma ApplyTouchesOneName(engine: Engine, schema: Schema, m: map<string, Document>, call: StoreCall, other: string)
    requires call.PutCall? ==> RegisteredName(engine, schema, call) != Some(other)
    requires call.DeleteCall? ==> call.operationName != other
    ensures var m' := Apply(engine, schema, m, call);
      && (other in m' <==> other in m)
      && (other in m ==> m'[other] == m[other])
      && (call.DeleteCall? ==> call.operationName !in m')
      && (call.PutCall? && Register(engine, schema, call.operation).Success? ==>
            var reg := Register(engine, schema, call.operation).value;
            reg.name in m' && m'[reg.name] == reg.document && reg.document.definitions != [])
      && (call.PutCall? && Register(engine, schema, call.operation).Failure? ==> m' == m)
  {
    if call.PutCall? && Register(engine, schema, call.operation).Success? {
      var ast := ParsedSource(engine, call.operation).value;
      assert |OperationDefinitions(ast.definitions)| == 1;
    }
  }

  /** The mapping after a sequence of calls, made in order. */
  function Replay(engine: Engine, schema: Schema, m: map<string, Document>, calls: seq<StoreCall>): map<string, Document>
    decreases |calls|
  {
    if |calls| == 0 then m
    else Apply(engine, schema, Replay(engine, schema, m, calls[..|calls| - 1]), calls[|calls| - 1])
  }

  /** The name a call registers, if it is a `put` that succeeds. */
  function RegisteredName(engine: Engine, schema: Schema, call: StoreCall): Option<string>
  {
    match call
    case PutCall(operation) =>
      (match Register(engine, schema, operation)
       case Success(reg) => Some(reg.name)
       case Failure(_) => None)
    case DeleteCall(_) => None
  }

  /** Call `i` registered a name that no later call deletes. */
  ghost predicate LiveAt(engine: Engine, schema: Schema, calls: seq<StoreCall>, i: int)
  {
    && 0 <= i < |calls|
    && RegisteredName(engine, schema, calls[i]).Some?
    && forall j :: i < j < |calls| ==> calls[j] != DeleteCall(RegisteredName(engine, schema, calls[i]).value)
  }

  /** The names successfully put and not deleted since. */
  ghost function LiveNames(engine: Engine, schema: Schema, calls: seq<StoreCall>): set<string>
  {
    set i | 0 <= i < |calls| && LiveAt(engine, schema, calls, i) :: RegisteredName(engine, schema, calls[i]).value
  }

  /** Appending a call keeps an earlier call live unless it deletes that call's name. */
  lemma LiveAtAppend(engine: Engine, schema: Schema, pre: seq<StoreCall>, c: StoreCall, i: int)
    requires 0 <= i < |pre|
    ensures LiveAt(engine, schema, pre + [c], i) <==>
      LiveAt(engine, schema, pre, i) && c != DeleteCall(RegisteredName(engine, schema, pre[i]).value)
  {
    var calls := pre + [c];
    assert calls[i] == pre[i];
    assert calls[|pre|] == c;
    if LiveAt(engine, schema, calls, i) {
      forall j | i < j < |pre|
        ensures pre[j] != DeleteCall(RegisteredName(engine, schema, pre[i]).value)
      {
        assert calls[j] == pre[j];
      }
    }
    if LiveAt(engine, schema, pre, i) && c != DeleteCall(RegisteredName(engine, schema, pre[i]).value) {
      forall j | i < j < |calls|
        ensures calls[j] != DeleteCall(RegisteredName(engine, schema, calls[i]).value)
      {
        if j < |pre| { assert calls[j] == pre[j]; }
      }
    }
  }

  /** How one more call changes the live names: a successful `put` adds its
      name, a `delete` removes its name, a failed `put` changes nothing. */
  lemma LiveNamesAppend(engine: Engine, schema: Schema, pre: seq<StoreCall>, c: StoreCall)
    ensures LiveNames(engine, schema, pre + [c]) ==
      match RegisteredName(engine, schema, c)
      case Some(n) => LiveNames(engine, schema, pre) + {n}
      case None => if c.DeleteCall? then LiveNames(engine, schema, pre) - {c.operationName}
                   else LiveNames(engine, schema, pre)
  {
    var calls := pre + [c];
    var before := LiveNames(engine, schema, pre);
    var after := LiveNames(engine, schema, calls);
    assert calls[|pre|] == c;
    forall i | 0 <= i < |pre| {
      LiveAtAppend(engine, schema, pre, c, i);
    }
    forall x | x in after
      ensures x in before || RegisteredName(engine, schema, c) == Some(x)
      ensures c.DeleteCall? ==> x != c.operationName
    {
      var i :| 0 <= i < |calls| && LiveAt(engine, schema, calls, i) && RegisteredName(engine, schema, calls[i]).value == x;
      if i < |pre| {
        assert calls[i] == pre[i];
        assert x in before;
      }
    }
    forall x | x in before && (c.DeleteCall? ==> x != c.operationName)
      ensures x in after
    {
      var i :| 0 <= i < |pre| && LiveAt(engine, schema, pre, i) && RegisteredName(engine, schema, pre[i]).value == x;
      assert calls[i] == pre[i];
    }
    if RegisteredName(engine, schema, c).Some? {
      assert LiveAt(engine, schema, calls, |pre|);
    }
  }

  /** Starting from an empty store, the stored names are exactly the names
      successfully put and not deleted since, so `getMap().size` counts them. */
  lemma {:induction false} ReplayKeysAreLiveNames(engine: Engine, schema: Schema, calls: seq<StoreCall>)
    ensures Replay(engine, schema, map[], calls).Keys == LiveNames(engine, schema, calls)
    ensures |Replay(engine, schema, map[], calls)| == |LiveNames(engine, schema, calls)|
    decreases |calls|
  {
    if |calls| > 0 {
      var pre := calls[..|calls| - 1];
      var c := calls[|calls| - 1];
      assert calls == pre + [c];
      ReplayKeysAreLiveNames(engine, schema, pre);
      LiveNamesAppend(engine, schema, pre, c);
    }
  }

  /** Putting query text stores exactly what putting its parse would, and a
      syntax error is thrown as it is. */
  lemma TextAndDocumentAgree(engine: Engine, schema: Schema, text: string)
    ensures engine.parse(text).Success? ==>
      Register(engine, schema, SourceText(text)) == Register(engine, schema, SourceDocument(engine.parse(text).value))
    ensures engine.parse(text).Failure? ==>
      Register(engine, schema, SourceText(text)) == Failure(ParseFailed(engine.parse(text).error))
  {
  }

  /** `put` throws "at least one definition" exactly when the document has no
      operation definition. */
  lemma NoOperationIff(engine: Engine, schema: Schema, document: Document)
    ensures Register(engine, schema, SourceDocument(document)) == Failure(NoOperation) <==>
      forall i :: 0 <= i < |document.definitions| ==> !IsOperationDefinition(document.definitions[i])
  {
    var ops := OperationDefinitions(document.definitions);
    if |ops| > 0 {
      assert ops[0] in ops;
    }
  }

  /** `put` throws "only one definition" exactly when two definitions are
      operations, whatever validation would have said. */
  lemma {:induction false} MultipleOperationsIff(engine: Engine, schema: Schema, document: Document)
    ensures Register(engine, schema, SourceDocument(document)) == Failure(MultipleOperations) <==>
      SeveralOperations(document.definitions)
  {
    SeveralOperationsIff(document.definitions);
  }

  /** With a sole operation, validation decides: any violation of the standard
      rules is thrown with every message after "Validation Errors:\n". */
  lemma {:induction false} ValidationFailedIff(engine: Engine, schema: Schema, document: Document)
    ensures Register(engine, schema, SourceDocument(document)).Failure? &&
            Register(engine, schema, SourceDocument(document)).error.ValidationFailed? <==>
      (exists i :: SoleOperationAt(document.definitions, i)) &&
      engine.validate(schema, document, engine.specifiedRules).Success? &&
      |engine.validate(schema, document, engine.specifiedRules).value| > 0
    ensures Register(engine, schema, SourceDocument(document)).Failure? &&
            Register(engine, schema, SourceDocument(document)).error.ValidationFailed? ==>
      var errors := engine.validate(schema, document, engine.specifiedRules).value;
      && Register(engine, schema, SourceDocument(document)).error.originalErrors == errors
      && Message(Register(engine, schema, SourceDocument(document)).error)
         == VALIDATION_ERRORS_PREFIX + Join(Messages(errors), "\n")
  {
    OneOperationIff(document.definitions);
  }

  /** `put` succeeds exactly when the document has a sole, named operation
      that validates; it then registers the whole document under that name. */
  lemma {:induction false} RegisterSucceedsIff(engine: Engine, schema: Schema, document: Document)
    ensures Register(engine, schema, SourceDocument(document)).Success? <==>
      exists i ::
        && SoleOperationAt(document.definitions, i)
        && document.definitions[i].name.Some?
        && engine.validate(schema, document, engine.specifiedRules) == Success([])
    ensures forall i :: SoleOperationAt(document.definitions, i) && Register(engine, schema, SourceDocument(document)).Success? ==>
      Register(engine, schema, SourceDocument(document)).value ==
        Registration(document.definitions[i].name.value, document)
  {
    OneOperationIff(document.definitions);
  }

  /** With a sole operation, a throw from validation escapes `put` as it is:
      the same error, with its own message. */
  lemma {:induction false} ValidateThrowEscapes(engine: Engine, schema: Schema, document: Document)
    ensures Register(engine, schema, SourceDocument(document)).Failure? &&
            Register(engine, schema, SourceDocument(document)).error.ValidateThrew? <==>
      (exists i :: SoleOperationAt(document.definitions, i)) &&
      engine.validate(schema, document, engine.specifiedRules).Failure?
    ensures Register(engine, schema, SourceDocument(document)).Failure? &&
            Register(engine, schema, SourceDocument(document)).error.ValidateThrew? ==>
      var e := engine.validate(schema, document, engine.specifiedRules).error;
      && Register(engine, schema, SourceDocument(document)).error == ValidateThrew(e)
      && Message(Register(engine, schema, SourceDocument(document)).error) == e.message
  {
    OneOperationIff(document.definitions);
  }

  /** A single validation error is reported by its own message after the prefix. */
  lemma SingleValidationMessage(e: Error)
    ensures Message(ValidationFailed([e])) == VALIDATION_ERRORS_PREFIX + e.message
  {
    assert Messages([e]) == [e.message];
  }

  /** A store of named operations, validated against one schema. */
  class OperationStore {
    const schema: Schema
    const engine: Engine
    var storedOperations: map<string, Document>

    constructor(schema: Schema, engine: Engine)
      ensures this.schema == schema && this.engine == engine
      ensures storedOperations == map[]
    {
      this.schema := schema;
      this.engine := engine;
      storedOperations := map[];
    }

    /** Registers the source's single operation under its name, or throws
        (returns `Fail`) and leaves the store unchanged. */
    method Put(operation: Source) returns (outcome: Outcome<PutError>)
      modifies this
      ensures outcome == (match Register(engine, schema, operation)
                          case Success(_) => Pass
                          case Failure(e) => Fail(e))
      ensures storedOperations == Apply(engine, schema, old(storedOperations), PutCall(operation))
    {
      var ast: Document;
      match operation {
        case SourceText(text) =>
          var parsed := engine.parse(text);
          if parsed.Failure? {
            return Fail(ParseFailed(parsed.error));
          }
          ast := parsed.value;
        case SourceDocument(document) =>
          ast := document;
      }
      var definitions := OperationDefinitions(ast.definitions);
      if |definitions| == 0 {
        return Fail(NoOperation);
      }
      if |definitions| > 1 {
        return Fail(MultipleOperations);
      }
      var validated := engine.validate(schema, ast, engine.specifiedRules);
      if validated.Failure? {
        return Fail(ValidateThrew(validated.error));
      }
      var validationErrors := validated.value;
      if |validationErrors| > 0 {
        return Fail(ValidationFailed(validationErrors));
      }
      if definitions[0].name.None? {
        return Fail(AnonymousOperation);
      }
      storedOperations := storedOperations[definitions[0].name.value := ast];
      outcome := Pass;
    }

    /** The stored document, or `None` (JavaScript's `undefined`) for an unknown name. */
    method Get(operationName: string) returns (document: Option<Document>)
      ensures operationName in storedOperations ==> document == Some(storedOperations[operationName])
      ensures operationName !in storedOperations ==> document == None
    {
      if operationName in storedOperations {
        document := Some(storedOperations[operationName]);
      } else {
        document := None;
      }
    }

    /** Removes the name; true exactly when it was stored. */
    method Delete(operationName: string) returns (existed: bool)
      modifies this
      ensures existed <==> operationName in old(storedOperations)
      ensures storedOperations == Apply(engine, schema, old(storedOperations), DeleteCall(operationName))
    {
      existed := operationName in storedOperations;
      storedOperations := storedOperations - {operationName};
    }

    /** The whole mapping. */
    method GetMap() returns (m: map<string, Document>)
      ensures m == storedOperations
    {
      m := storedOperations;
    }
  }
}

=== FILE: run_query.dfy ===
/** The query executor: one GraphQL request run through parse, validate,
    execute and format, with a lifecycle log of every step. */
module RunQuery {
  import opened Wrappers
  import opened GraphQL

  /** The phase a log message reports. The source names the validation phase `validation`. */
  datatype LogAction = Request | Parse | Validation | Execute

  datatype LogStep = Start | End | Status

  /** The payload of a `status` message: the query text (absent when printing
      an absent document gives nothing), the variables or the operation name. */
  datatype LogData =
    | NoData
    | QueryTextData(text: Option<string>)
    | VariablesData(variables: Option<Json>)
    | OperationNameData(operationName: Option<string>)

  /** One message handed to the caller's log function. */
  datatype LogMessage = LogMessage(action: LogAction, step: LogStep, key: Option<string>, data: LogData)

  function Event(action: LogAction, step: LogStep): LogMessage
  {
    LogMessage(action, step, None, NoData)
  }

  function StatusEvent(key: string, data: LogData): LogMessage
  {
    LogMessage(Request, Status, Some(key), data)
  }

  /** The `query` option: text to parse, a document parsed beforehand, or
      nothing at all (an item without `query`, or a `formatParams` hook that
      looked up an operation name nobody registered). */
  datatype QueryValue = QueryString(text: string) | QueryDocument(document: Document) | QueryUndefined

  /** A GraphQL response: `data` and `errors` are absent (`None`) unless set;
      `extensions` stands for what a `formatResponse` hook may add. */
  datatype Response = Response(data: Option<Json>, errors: Option<seq<Json>>, extensions: Option<Json>)

  /** A response that carries only errors, as every failure path returns. */
  function ErrorsOnly(errors: seq<Json>): Response
  {
    Response(None, Some(errors), None)
  }

  /** A response with errors and no data: a request-level failure, which an
      adapter answers with status 400 outside batch mode. */
  predicate IsRequestError(r: Response)
  {
    r.errors.Some? && r.data.None?
  }

  /** The data part of the options of one query, which `formatResponse` receives. */
  datatype QueryFields = QueryFields(
    schema: Schema,
    query: QueryValue,
    rootValue: Option<Json>,
    context: Option<Json>,
    variables: Option<Json>,
    operationName: Option<string>,
    validationRules: Option<seq<ValidationRule>>,
    debug: Option<bool>)

  /** The options of one query: its data and its two hooks, either of which
      may throw. */
  datatype QueryOptions = QueryOptions(
    fields: QueryFields,
    formatError: Option<ErrorFormatter>,
    formatResponse: Option<(Response, QueryFields) -> Result<Response, Error>>)

  /** What one run produces: the response (or the error its promise rejects
      with), the messages given to the log function, and the stack traces
      printed to the diagnostic console. */
  datatype Run = Run(outcome: Result<Response, Error>, log: seq<LogMessage>, stackTraces: seq<string>)

  /** `formatError || graphql.formatError`: the caller's formatter, else the
      engine's default. The query runner and both adapters choose this way. */
  function ChosenFormatter(engine: Engine, formatError: Option<ErrorFormatter>): ErrorFormatter
  {
    if formatError.Some? then formatError.value else engine.formatError
  }

  /** `format(errors)`, an `errors.map(formatError)`: every error formatted, in
      order, or the throw of the first formatter call that throws. */
  function Format(formatError: ErrorFormatter, errors: seq<Error>): Result<seq<Json>, Error>
  {
    Traverse(formatError, errors)
  }

  /** The response `{errors: format(errors)}`, or the formatter's throw. */
  function ErrorsResponse(formatted: Result<seq<Json>, Error>): Result<Response, Error>
  {
    match formatted
    case Success(errors) => Success(ErrorsOnly(errors))
    case Failure(e) => Failure(e)
  }

  /** The standard rules, followed by the caller's extra rules when given. */
  function Rules(engine: Engine, fields: QueryFields): seq<ValidationRule>
  {
    if fields.validationRules.Some? then engine.specifiedRules + fields.validationRules.value
    else engine.specifiedRules
  }

  /** The `debug` option, else the environment's default. */
  function DebugEnabled(fields: QueryFields, debugDefault: bool): bool
  {
    if fields.debug.Some? then fields.debug.value else debugDefault
  }

  /** The document a query that is not text stands for: `documentAST = options.query`. */
  function DocumentOf(query: QueryValue): Option<Document>
  {
    if query.QueryDocument? then Some(query.document) else None
  }

  /** The query text reported in the log: the string itself, or what printing
      the (possibly absent) document gives or throws. */
  function LoggedQuery(engine: Engine, query: QueryValue): Result<Option<string>, Error>
  {
    if query.QueryString? then Success(Some(query.text)) else engine.printDocument(DocumentOf(query))
  }

  /** The first four messages of every run that gets past printing the query. */
  function Opening(qry: Option<string>, fields: QueryFields): seq<LogMessage>
  {
    [ Event(Request, Start),
      StatusEvent("query", QueryTextData(qry)),
      StatusEvent("variables", VariablesData(fields.variables)),
      StatusEvent("operationName", OperationNameData(fields.operationName)) ]
  }

  function StackTraces(errors: seq<Error>): seq<string>
  {
    seq(|errors|, i requires 0 <= i < |errors| => errors[i].stack)
  }

  /** The response after the `formatResponse` hook, whose result (or throw) is final. */
  function Finalize(options: QueryOptions, response: Response): Result<Response, Error>
  {
    if options.formatResponse.Some? then options.formatResponse.value(response, options.fields)
    else Success(response)
  }

  /** The run from `execute/start` on, given the (possibly absent) document to
      execute, whether debug mode is on, and the log so far. */
  function Executed(engine: Engine, options: QueryOptions, document: Option<Document>, debug: bool,
                    log: seq<LogMessage>): Run
  {
    var f := options.fields;
    var formatError := ChosenFormatter(engine, options.formatError);
    var log' := log + [Event(Execute, Start), Event(Execute, End), Event(Request, End)];
    match engine.execute(f.schema, document, f.rootValue, f.context, f.variables, f.operationName)
    case Failure(executionError) =>
      Run(ErrorsResponse(Format(formatError, [executionError])), log', [])
    case Success(result) =>
      if result.errors.None? then Run(Finalize(options, Response(result.data, None, None)), log', [])
      else
        match Format(formatError, result.errors.value)
        case Failure(e) => Run(Failure(e), log', [])
        case Success(errors) =>
          Run(Finalize(options, Response(result.data, Some(errors), None)), log',
              if debug then StackTraces(result.errors.value) else [])
  }

  /** The run of query text from `parse/start` on: a syntax error or
      validation errors end it early, a throw from validation rejects it
      before `validation/end`; otherwise the document is executed. */
  function TextRun(engine: Engine, options: QueryOptions, debug: bool, log: seq<LogMessage>): Run
    requires options.fields.query.QueryString?
  {
    var f := options.fields;
    var formatError := ChosenFormatter(engine, options.formatError);
    match engine.parse(f.query.text)
    case Failure(syntaxError) =>
      Run(ErrorsResponse(Format(formatError, [syntaxError])), log + [Event(Parse, Start), Event(Parse, End)], [])
    case Success(document) =>
      match engine.validate(f.schema, document, Rules(engine, f))
      case Failure(e) => Run(Failure(e), log + [Event(Parse, Start), Event(Parse, End), Event(Validation, Start)], [])
      case Success(validationErrors) =>
        var log' := log + [Event(Parse, Start), Event(Parse, End), Event(Validation, Start), Event(Validation, End)];
        if |validationErrors| > 0 then Run(ErrorsResponse(Format(formatError, validationErrors)), log', [])
        else Executed(engine, options, Some(document), debug, log')
  }

  /** What running a query does, path by path. */
  function QueryRun(engine: Engine, options: QueryOptions, debugDefault: bool): Run
  {
    var f := options.fields;
    match LoggedQuery(engine, f.query)
    case Failure(e) => Run(Failure(e), [Event(Request, Start)], [])
    case Success(qry) =>
      var log := Opening(qry, f);
      if f.query.QueryString? then TextRun(engine, options, DebugEnabled(f, debugDefault), log)
      else Executed(engine, options, DocumentOf(f.query), DebugEnabled(f, debugDefault), log)
  }

  /** Prints the stack trace of every error, in order (`printStackTrace` over
      the execution errors); the console output is the returned sequence. */
  method PrintStackTraces(errors: seq<Error>) returns (traces: seq<string>)
    ensures |traces| == |errors|
    ensures forall i :: 0 <= i < |errors| ==> traces[i] == errors[i].stack
  {
    traces := [];
    var i := 0;
    while i < |errors|
      invariant 0 <= i <= |errors|
      invariant |traces| == i
      invariant forall k :: 0 <= k < i ==> traces[k] == errors[k].stack
    {
      traces := traces + [errors[i].stack];
      i := i + 1;
    }
  }

  /** The execution step of `doRunQuery`: executes the document, logs
      `execute/end` and `request/end`, formats the outcome, prints stack
      traces in debug mode and applies `formatResponse`. */
  method ExecuteDocument(engine: Engine, options: QueryOptions, document: Option<Document>, debug: bool,
                         log: seq<LogMessage>) returns (run: Run)
    ensures run == Executed(engine, options, document, debug, log)
  {
    var f := options.fields;
    var formatError := ChosenFormatter(engine, options.formatError);
    var log' := log + [Event(Execute, Start)];
    var executed := engine.execute(f.schema, document, f.rootValue, f.context, f.variables, f.operationName);
    log' := log' + [Event(Execute, End)];
    log' := log' + [Event(Request, End)];
    if executed.Failure? {
      return Run(ErrorsResponse(Format(formatError, [executed.error])), log', []);
    }
    var gqlResponse := executed.value;
    var response := Response(gqlResponse.data, None, None);
    var traces: seq<string> := [];
    if gqlResponse.errors.Some? {
      var formatted := Format(formatError, gqlResponse.errors.value);
      if formatted.Failure? {
        return Run(Failure(formatted.error), log', []);
      }
      response := response.(errors := Some(formatted.value));
      if debug {
        traces := PrintStackTraces(gqlResponse.errors.value);
      }
    }
    var outcome := Success(response);
    if options.formatResponse.Some? {
      outcome := options.formatResponse.value(response, f);
    }
    run := Run(outcome, log', traces);
  }

  /** The parse and validation steps of `doRunQuery` for query text, each
      logged between its start and end messages, then the execution step. */
  method ParseAndValidate(engine: Engine, options: QueryOptions, debug: bool, log: seq<LogMessage>)
    returns (run: Run)
    requires options.fields.query.QueryString?
    ensures run == TextRun(engine, options, debug, log)
  {
    var f := options.fields;
    var formatError := ChosenFormatter(engine, options.formatError);
    var log' := log + [Event(Parse, Start)];
    var parsed := engine.parse(f.query.text);
    log' := log' + [Event(Parse, End)];
    if parsed.Failure? {
      return Run(ErrorsResponse(Format(formatError, [parsed.error])), log', []);
    }
    var rules := engine.specifiedRules;
    if f.validationRules.Some? {
      rules := rules + f.validationRules.value;
    }
    log' := log' + [Event(Validation, Start)];
    var validated := engine.validate(f.schema, parsed.value, rules);
    if validated.Failure? {
      return Run(Failure(validated.error), log', []);
    }
    var validationErrors := validated.value;
    log' := log' + [Event(Validation, End)];
    if |validationErrors| > 0 {
      return Run(ErrorsResponse(Format(formatError, validationErrors)), log', []);
    }
    run := ExecuteDocument(engine, options, Some(parsed.value), debug, log');
  }

  /** Runs one query (`runQuery`, which defers to `doRunQuery`): logs as it
      goes, returns early on a syntax error or validation errors, and prints
      one stack trace per execution error in debug mode. What `doRunQuery`
      throws becomes the rejection of `runQuery`'s promise. `debugDefault` is
      what the environment makes the default of `debug`. */
  method DoRunQuery(engine: Engine, options: QueryOptions, debugDefault: bool) returns (run: Run)
    ensures run == QueryRun(engine, options, debugDefault)
  {
    var f := options.fields;
    var log: seq<LogMessage> := [];
    var debug := DebugEnabled(f, debugDefault);
    log := log + [Event(Request, Start)];
    var qry: Option<string>;
    if f.query.QueryString? {
      qry := Some(f.query.text);
    } else {
      var printed := engine.printDocument(DocumentOf(f.query));
      if printed.Failure? {
        return Run(Failure(printed.error), log, []);
      }
      qry := printed.value;
    }
    log := log + [StatusEvent("query", QueryTextData(qry))];
    log := log + [StatusEvent("variables", VariablesData(f.variables))];
    log := log + [StatusEvent("operationName", OperationNameData(f.operationName))];
    assert log == Opening(qry, f);
    if f.query.QueryString? {
      run := ParseAndValidate(engine, options, debug, log);
    } else {
      run := ExecuteDocument(engine, options, DocumentOf(f.query), debug, log);
    }
  }

  /** Every run starts with `request/start`. Text is never printed; for any
      other query, a throw from printing rejects the run right after
      `request/start`, and otherwise the run goes on to report the printed
      text, the variables and the operation name, in that order. */
  lemma TraceOpening(engine: Engine, options: QueryOptions, debugDefault: bool)
    ensures var run := QueryRun(engine, options, debugDefault);
      var printed := LoggedQuery(engine, options.fields.query);
      && |run.log| >= 1
      && run.log[0] == Event(Request, Start)
      && (options.fields.query.QueryString? ==> printed == Success(Some(options.fields.query.text)))
      && (printed.Failure? ==> run == Run(Failure(printed.error), [Event(Request, Start)], []))
      && (printed.Success? ==>
            && |run.log| >= 4
            && run.log[1] == StatusEvent("query", QueryTextData(printed.value))
            && run.log[2] == StatusEvent("variables", VariablesData(options.fields.variables))
            && run.log[3] == StatusEvent("operationName", OperationNameData(options.fields.operationName)))
  {
    var run := QueryRun(engine, options, debugDefault);
    var printed := LoggedQuery(engine, options.fields.query);
    if printed.Success? {
      assert run.log[..4] == Opening(printed.value, options.fields);
    }
  }

  /** A syntax error is answered with that one formatted error and no data
      (or the formatter's throw rejects the run); the log ends at
      `parse/end`, with no validation, execution or `request/end` message. */
  lemma SyntaxErrorPath(engine: Engine, options: QueryOptions, debugDefault: bool)
    requires options.fields.query.QueryString?
    requires engine.parse(options.fields.query.text).Failure?
    ensures var run := QueryRun(engine, options, debugDefault);
      var syntaxError := engine.parse(options.fields.query.text).error;
      var formatted := ChosenFormatter(engine, options.formatError)(syntaxError);
      && (formatted.Success? ==> run.outcome == Success(Response(None, Some([formatted.value]), None)))
      && (formatted.Failure? ==> run.outcome == Failure(formatted.error))
      && run.log == Opening(Some(options.fields.query.text), options.fields) + [Event(Parse, Start), Event(Parse, End)]
      && (forall m :: m in run.log ==> m.action != Validation && m.action != Execute && m != Event(Request, End))
      && run.stackTraces == []
  {
    var syntaxError := engine.parse(options.fields.query.text).error;
    var formatted := Format(ChosenFormatter(engine, options.formatError), [syntaxError]);
    if formatted.Success? {
      assert formatted.value == [formatted.value[0]];
    }
  }

  /** Query text that parses is validated with the standard rules followed by
      the caller's rules; any violation is answered with all of them,
      formatted in order, and no data (or the first formatter throw rejects
      the run), and execution never starts. */
  lemma ValidationErrorPath(engine: Engine, options: QueryOptions, debugDefault: bool)
    requires options.fields.query.QueryString?
    requires engine.parse(options.fields.query.text).Success?
    requires var validated := engine.validate(options.fields.schema, engine.parse(options.fields.query.text).value,
                                              engine.specifiedRules + (if options.fields.validationRules.Some? then options.fields.validationRules.value else []));
      validated.Success? && |validated.value| > 0
    ensures var run := QueryRun(engine, options, debugDefault);
      var formatError := ChosenFormatter(engine, options.formatError);
      var errors := engine.validate(options.fields.schema, engine.parse(options.fields.query.text).value,
                                    engine.specifiedRules + (if options.fields.validationRules.Some? then options.fields.validationRules.value else [])).value;
      && run.outcome == ErrorsResponse(Format(formatError, errors))
      && (run.outcome.Success? ==>
            && run.outcome.value.data.None?
            && run.outcome.value.errors.Some?
            && |run.outcome.value.errors.value| == |errors|
            && forall i :: 0 <= i < |errors| ==> run.outcome.value.errors.value[i] == formatError(errors[i]).value)
      && (run.outcome.Failure? ==>
            exists i :: 0 <= i < |errors| && formatError(errors[i]) == Failure(run.outcome.error))
      && run.log == Opening(Some(options.fields.query.text), options.fields)
                    + [Event(Parse, Start), Event(Parse, End), Event(Validation, Start), Event(Validation, End)]
      && (forall m :: m in run.log ==> m.action != Execute)
      && run.stackTraces == []
  {
    var f := options.fields;
    if f.validationRules.None? {
      assert engine.specifiedRules + [] == engine.specifiedRules;
    }
  }

  /** Query text that parses, validates and executes is logged with exactly
      eleven messages, the last one `request/end`. */
  lemma SuccessfulTextTrace(engine: Engine, options: QueryOptions, debugDefault: bool)
    requires options.fields.query.QueryString?
    requires engine.parse(options.fields.query.text).Success?
    requires engine.validate(options.fields.schema, engine.parse(options.fields.query.text).value,
                             Rules(engine, options.fields)) == Success([])
    ensures var run := QueryRun(engine, options, debugDefault);
      && |run.log| == 11
      && run.log[4..] == [Event(Parse, Start), Event(Parse, End), Event(Validation, Start), Event(Validation, End),
                          Event(Execute, Start), Event(Execute, End), Event(Request, End)]
      && run.log[10] == Event(Request, End)
  {
  }

  /** A query that is not text is neither parsed nor validated: once printed,
      it goes straight to execution, which receives that very document, or
      nothing for an absent query, and the log holds seven messages. */
  lemma NonTextSkipsParseAndValidation(engine: Engine, options: QueryOptions, debugDefault: bool)
    requires !options.fields.query.QueryString?
    requires engine.printDocument(DocumentOf(options.fields.query)).Success?
    ensures var run := QueryRun(engine, options, debugDefault);
      var f := options.fields;
      && run == Executed(engine, options, if f.query.QueryDocument? then Some(f.query.document) else None,
                         DebugEnabled(f, debugDefault),
                         Opening(engine.printDocument(DocumentOf(f.query)).value, f))
      && |run.log| == 7
      && (forall m :: m in run.log ==> m.action != Parse && m.action != Validation)
  {
    var f := options.fields;
    var qry := engine.printDocument(DocumentOf(f.query)).value;
    assert LoggedQuery(engine, f.query) == Success(qry);
    var run := Executed(engine, options, DocumentOf(f.query), DebugEnabled(f, debugDefault), Opening(qry, f));
    assert run.log == Opening(qry, f) + [Event(Execute, Start), Event(Execute, End), Event(Request, End)];
  }

  /** After execution, `data` is the engine's data, and `errors` is present
      exactly when the engine reported errors, each one formatted, in order;
      `formatResponse`, when given, sees this response and its result or its
      throw is final. A formatter throw rejects the run instead, before
      `formatResponse`. */
  lemma ExecutionResponse(engine: Engine, options: QueryOptions, document: Option<Document>,
                          debug: bool, log: seq<LogMessage>)
    requires var f := options.fields;
      engine.execute(f.schema, document, f.rootValue, f.context, f.variables, f.operationName).Success?
    ensures var f := options.fields;
      var formatError := ChosenFormatter(engine, options.formatError);
      var result := engine.execute(f.schema, document, f.rootValue, f.context, f.variables, f.operationName).value;
      var run := Executed(engine, options, document, debug, log);
      && (result.errors.None? ==>
            run.outcome == Finalize(options, Response(result.data, None, None)))
      && (result.errors.Some? && Format(formatError, result.errors.value).Success? ==>
            var formatted := Format(formatError, result.errors.value).value;
            && run.outcome == Finalize(options, Response(result.data, Some(formatted), None))
            && |formatted| == |result.errors.value|
            && forall i :: 0 <= i < |formatted| ==> formatted[i] == formatError(result.errors.value[i]).value)
      && (result.errors.Some? && Format(formatError, result.errors.value).Failure? ==>
            && run.outcome.Failure?
            && exists i :: 0 <= i < |result.errors.value| && formatError(result.errors.value[i]) == Failure(run.outcome.error))
      && (options.formatResponse.None? ==> run.outcome.Success? ==> run.outcome.value.data == result.data)
  {
  }

  /** The hook's throw is what the run rejects with: a `formatResponse` that
      throws on a response makes the run reject with that error. */
  lemma FormatResponseThrowRejects(engine: Engine, options: QueryOptions, document: Option<Document>,
                                   debug: bool, log: seq<LogMessage>)
    requires var f := options.fields;
      var executed := engine.execute(f.schema, document, f.rootValue, f.context, f.variables, f.operationName);
      && executed.Success?
      && executed.value.errors.None?
      && options.formatResponse.Some?
      && options.formatResponse.value(Response(executed.value.data, None, None), f).Failure?
    ensures var f := options.fields;
      var executed := engine.execute(f.schema, document, f.rootValue, f.context, f.variables, f.operationName);
      Executed(engine, options, document, debug, log).outcome
        == Failure(options.formatResponse.value(Response(executed.value.data, None, None), f).error)
  {
  }

  /** One stack trace per execution error is printed when `debug` is on and
      every error could be formatted, and none otherwise. */
  lemma StackTracesOnlyInDebug(engine: Engine, options: QueryOptions, document: Option<Document>,
                               debug: bool, log: seq<LogMessage>)
    ensures var f := options.fields;
      var executed := engine.execute(f.schema, document, f.rootValue, f.context, f.variables, f.operationName);
      var run := Executed(engine, options, document, debug, log);
      if && executed.Success? && executed.value.errors.Some? && debug
         && Format(ChosenFormatter(engine, options.formatError), executed.value.errors.value).Success?
      then
        && |run.stackTraces| == |executed.value.errors.value|
        && forall i :: 0 <= i < |run.stackTraces| ==> run.stackTraces[i] == executed.value.errors.value[i].stack
      else run.stackTraces == []
  {
  }

  /** An explicit `debug` option overrides the environment's default, and a
      run prints stack traces only when debug mode is on. */
  lemma DebugOptionDecides(engine: Engine, options: QueryOptions, debugDefault: bool)
    ensures options.fields.debug.Some? ==>
      QueryRun(engine, options, debugDefault) == QueryRun(engine, options, !debugDefault)
    ensures QueryRun(engine, options, debugDefault).stackTraces != [] ==>
      DebugEnabled(options.fields, debugDefault)
  {
  }

  /** Only a run that reaches execution prints stack traces. */
  lemma NoStackTracesBeforeExecution(engine: Engine, options: QueryOptions, debugDefault: bool)
    requires options.fields.query.QueryString?
    requires engine.parse(options.fields.query.text).Failure? ||
      var validated := engine.validate(options.fields.schema, engine.parse(options.fields.query.text).value,
                                       Rules(engine, options.fields));
      validated.Failure? || |validated.value| > 0
    ensures QueryRun(engine, options, debugDefault).stackTraces == []
  {
  }

  /** A throw from validation (from a rule of the caller's, say) rejects the
      run with that error right after `validation/start`: there is no
      `validation/end`, nothing is executed and `request/end` is not logged. */
  lemma ValidateThrowPath(engine: Engine, options: QueryOptions, debugDefault: bool)
    requires options.fields.query.QueryString?
    requires engine.parse(options.fields.query.text).Success?
    requires engine.validate(options.fields.schema, engine.parse(options.fields.query.text).value,
                             Rules(engine, options.fields)).Failure?
    ensures var run := QueryRun(engine, options, debugDefault);
      var e := engine.validate(options.fields.schema, engine.parse(options.fields.query.text).value,
                               Rules(engine, options.fields)).error;
      && run.outcome == Failure(e)
      && run.log == Opening(Some(options.fields.query.text), options.fields)
                    + [Event(Parse, Start), Event(Parse, End), Event(Validation, Start)]
      && (forall m :: m in run.log ==> m != Event(Validation, End) && m.action != Execute && m != Event(Request, End))
      && run.stackTraces == []
  {
  }

  /** A synchronous throw from `execute` (as when it is handed no document)
      is answered with that one formatted error and no data, after logging
      `execute/end` and `request/end`; `formatResponse` is not applied. */
  lemma ExecuteThrowPath(engine: Engine, options: QueryOptions, document: Option<Document>,
                         debug: bool, log: seq<LogMessage>)
    requires var f := options.fields;
      engine.execute(f.schema, document, f.rootValue, f.context, f.variables, f.operationName).Failure?
    ensures var f := options.fields;
      var e := engine.execute(f.schema, document, f.rootValue, f.context, f.variables, f.operationName).error;
      var formatted := ChosenFormatter(engine, options.formatError)(e);
      var run := Executed(engine, options, document, debug, log);
      && (formatted.Success? ==> run.outcome == Success(Response(None, Some([formatted.value]), None)))
      && (formatted.Failure? ==> run.outcome == Failure(formatted.error))
      && run.log == log + [Event(Execute, Start), Event(Execute, End), Event(Request, End)]
      && run.stackTraces == []
  {
    var f := options.fields;
    var e := engine.execute(f.schema, document, f.rootValue, f.context, f.variables, f.operationName).error;
    var formatted := Format(ChosenFormatter(engine, options.formatError), [e]);
    if formatted.Success? {
      assert formatted.value == [formatted.value[0]];
    }
  }
}

=== FILE: wrappers.dfy ===
/** Failure-carrying datatypes used across the model: JavaScript's
    `undefined`, thrown exceptions and rejected promises all become one of these. */
module Wrappers {

  /** A value that may be absent (`undefined` in the source). */
  datatype Option<+T> = None | Some(value: T)

  /** A computation that either returns a value or throws an error. */
  datatype Result<+R, +E> = Success(value: R) | Failure(error: E)

  /** A computation that returns nothing or throws an error. */
  datatype Outcome<+E> = Pass | Fail(error: E)

  /** A loop that applies `step` to each element in order and collects the
      results, where the first step that throws (or returns early) ends the
      loop with what it threw. */
  function Traverse<T, S, E>(step: T -> Result<S, E>, xs: seq<T>): (r: Result<seq<S>, E>)
    ensures r.Success? <==> forall i :: 0 <= i < |xs| ==> step(xs[i]).Success?
    ensures r.Success? ==>
      && |r.value| == |xs|
      && forall i :: 0 <= i < |xs| ==> r.value[i] == step(xs[i]).value
    ensures r.Failure? ==>
      exists i :: && 0 <= i < |xs|
                  && step(xs[i]) == Failure(r.error)
                  && forall j :: 0 <= j < i ==> step(xs[j]).Success?
    decreases |xs|
  {
    if |xs| == 0 then Success([])
    else
      var init := xs[..|xs| - 1];
      match Traverse(step, init)
      case Failure(e) =>
        assert exists i :: && 0 <= i < |init|
                           && step(init[i]) == Failure(e)
                           && forall j :: 0 <= j < i ==> step(init[j]).Success?;
        Failure(e)
      case Success(done) =>
        match step(xs[|xs| - 1])
        case Failure(e) =>
          assert forall j :: 0 <= j < |xs| - 1 ==> step(xs[j]).Success? by {
            forall j | 0 <= j < |xs| - 1 ensures step(xs[j]).Success? {
              assert xs[j] == init[j];
            }
          }
          Failure(e)
        case Success(last) => Success(done + [last])
  }

  /** The loop ends with what the first throwing step threw. */
  lemma TraverseFirstFailure<T, S, E>(step: T -> Result<S, E>, xs: seq<T>, k: nat)
    requires k < |xs| && step(xs[k]).Failure?
    requires forall j :: 0 <= j < k ==> step(xs[j]).Success?
    ensures Traverse(step, xs) == Failure(step(xs[k]).error)
  {
    var r := Traverse(step, xs);
    var i :| && 0 <= i < |xs|
             && step(xs[i]) == Failure(r.error)
             && forall j :: 0 <= j < i ==> step(xs[j]).Success?;
    assert i == k;
  }

  /** A loop that ends within the first `n` elements ends the same way
      whatever follows them. */
  lemma TraversePrefixFailure<T, S, E>(step: T -> Result<S, E>, xs: seq<T>, n: nat)
    requires n <= |xs| && Traverse(step, xs[..n]).Failure?
    ensures Traverse(step, xs) == Traverse(step, xs[..n])
  {
    var prefix := xs[..n];
    var i :| && 0 <= i < |prefix|
             && step(prefix[i]) == Failure(Traverse(step, prefix).error)
             && forall j :: 0 <= j < i ==> step(prefix[j]).Success?;
    assert forall j :: 0 <= j < i ==> step(xs[j]).Success? by {
      forall j | 0 <= j < i ensures step(xs[j]).Success? {
        assert prefix[j] == xs[j];
      }
    }
    assert prefix[i] == xs[i];
    TraverseFirstFailure(step, xs, i);
  }

  /** The element at `j` once the one at `k` is left out. */
  lemma RemovedAt<T>(xs: seq<T>, k: nat, j: nat)
    requires k < |xs| && j < |xs| - 1
    ensures |xs[..k] + xs[k + 1..]| == |xs| - 1
    ensures (xs[..k] + xs[k + 1..])[j] == xs[if j < k then j else j + 1]
  {
  }

  /** Leaving out one element of a loop in which no step throws leaves out
      its result and changes no other. */
  lemma TraverseRemove<T, S, E>(step: T -> Result<S, E>, xs: seq<T>, k: nat)
    requires k < |xs|
    requires forall i :: 0 <= i < |xs| ==> step(xs[i]).Success?
    ensures var others := xs[..k] + xs[k + 1..];
      && Traverse(step, others).Success?
      && Traverse(step, others).value == Traverse(step, xs).value[..k] + Traverse(step, xs).value[k + 1..]
  {
    var others := xs[..k] + xs[k + 1..];
    forall j | 0 <= j < |others|
      ensures step(others[j]).Success?
    {
      RemovedAt(xs, k, j);
    }
    var all := Traverse(step, xs).value;
    var rest := Traverse(step, others).value;
    forall j | 0 <= j < |others|
      ensures rest[j] == (all[..k] + all[k + 1..])[j]
    {
      RemovedAt(xs, k, j);
      RemovedAt(all, k, j);
    }
  }
}
